=== FILE: README.md ===
# Lemon engine core, modelled in Dafny

Lemon is a small 3D engine written in C++, with a second runtime in Kotlin. Its
logic that can be modelled consists of small, single-threaded state machines and
containers. This project models them in Dafny and proves what each one promises:

- **Resource stack** (`ResourceStack`). It holds groups of release actions.
  `push` opens a group. `attach` records a delete action in the top group. `pop`
  runs the top group's actions in attachment order and drops the group.
  `resource_hold` pushes when constructed and pops when destroyed. Its constructor
  and destructor are only declared (core/resource_stack.h:140, 145), with no
  definition in core/resource_stack.cpp, so the model follows their doc comments.
- **C++ worker thread and pool** (`WorkerThread`):
  - a FIFO task queue, with tasks run inline when submitted from the parked thread;
  - a refused second `park`;
  - a drain pass that stops with a fatal error at the first throwing task;
  - round-robin dispatch over the pool.
- **Kotlin worker thread and pool** (`KotlinWorker`):
  - a fixed-size ring buffer with `indexIn`/`indexOut` and two semaphore counts;
  - `useThisThread`, `destroy`;
  - a pool that dispatches round-robin through a 32-bit counter, which wraps.
- **Latch** (`Latch`): a counter with a guarded `count_down`, a `count_up`, and a
  `wait` that passes when the count is at most 0.
- **Linked deque** (`Deque`): a sentinel-headed singly linked list with `add`,
  `push`, `poll`, `pop`, `size`.
- **String splitting** (`StringSplit`): `split_string`.
- **OBJ loading** (`ObjLoader`): the per-line OBJ rules of the mesh loader.
- **Log pattern interpreter** (`Logger`): `print` and `logger::log`, with the
  current time given as a value and the output returned as a string.
- **GLFW reference counts**:
  - the C++ `glfw_context` counter (`ExtGlfw`);
  - the Kotlin `GLFWGlobal.count` setter and `GLFWContext` (`GlfwKotlin`).
- **Implementation registry** (`ContextDiscovery`): `registerImplementation`, an
  update to a map of maps.

How the model treats the outside world:
- Threads are not modelled. The calling thread is a parameter. A blocking wait
  (a free slot, an available task, an unlocked mutex) is a precondition. A
  thread's loop is an explicit step.
- Running a task is recorded in a `ran` trace, and a logged error message in
  `errors`.
- Calls into GLFW and the log lines around them are events in a trace.
- Whether `glfwInit` succeeds is an input.
- The number of logical cores, what `hardware_concurrency()` reports, is an input.
- The clock is a `DateTime` input.
- `strtof` is kept abstract: coordinates stay the text they are parsed from.

## Model

| member | source | states |
|---|---|---|
| ResourceStack.Pushed | core/resource_stack.cpp:21-26 | one new empty group on top; lower groups and the released trace unchanged |
| ResourceStack.Popped | core/resource_stack.cpp:28-41 | no groups: nothing changes; otherwise the top group's actions are run in index order and only that group is removed |
| ResourceStack.Attached | core/resource_stack.h:100-112 | with no group, a group is pushed first; exactly `Delete(r)` is appended to the top group; nothing is run |
| ResourceStack.PopConservesActions | core/resource_stack.cpp:28-41 | pending plus released actions are the same multiset before and after `pop`: nothing is lost or run twice |
| ResourceStack.AttachAddsOneAction | core/resource_stack.h:100-112 | the pending actions gain exactly the one delete action, at the end |
| ResourceStack.PushThenPopRestores | core/resource_stack.cpp:21-41 | `push` then `pop` restores the whole state and runs nothing |
| ResourceStack.PopRunsInAttachmentOrder | core/resource_stack.cpp:35-38 | two resources attached to a new group are deleted first-attached first |
| ResourceStack.NestedKeepsLowerGroups | core/resource_stack.h:18-37 | under well-nested push/attach/pop work, groups below the watched one are untouched and it only gains actions |
| ResourceStack.StepKeepsLowerGroups | core/resource_stack.h:61-87 | one step of such work keeps the groups below the watched one and only extends that group |
| ResourceStack.HoldReleasesItsGroup | core/resource_stack.h:115-145 | a hold around nested work restores the groups exactly; a resource attached in the hold's group is still pending until the hold's pop, which deletes it |
| ResourceStack.ResourceStack.constructor | core/resource_stack.cpp:15-19 | a fresh stack has exactly one empty group |
| ResourceStack.ResourceStack.Push | core/resource_stack.cpp:21-26 | the new state is `Pushed` of the old |
| ResourceStack.ResourceStack.Pop | core/resource_stack.cpp:28-41 | the new state is `Popped` of the old, iterating a copy of the top group |
| ResourceStack.ResourceStack.Attach | core/resource_stack.h:100-112 | the new state is `Attached` of the old |
| ResourceStack.ResourceHold.constructor | core/resource_stack.h:115-121 | the hold pushes its stack |
| ResourceStack.ResourceHold.Release | core/resource_stack.h:136-145 | the hold pops its stack |
| WorkerThread.FirstFailure | core/worker_thread.cpp:59-75 | the index of the first throwing task: all before it return normally |
| WorkerThread.RunLogged | core/worker_thread.cpp:89-96 | a task run inline leaves the queue alone; its message is logged exactly when it throws, and the exception goes no further |
| WorkerThread.SubmittedAllAppends | core/worker_thread.cpp:101-106 | tasks submitted from another thread are appended to the back of the queue, in order |
| WorkerThread.SubmittedAllInline | core/worker_thread.cpp:86-99 | tasks submitted from the parked thread run at once in submission order, never reach the queue, and the message of each that throws is logged |
| WorkerThread.ThrowingTaskNeverReleases | core/worker_thread.cpp:115-134 | a task that throws never releases its `execute_wait` caller: inline its message is logged, posted the drain pass ends with the fatal error |
| WorkerThread.SubmissionOrderIsExecutionOrder | core/worker_thread.h:51-57 | queued tasks then submitted ones run in exactly that order and the pass empties the queue |
| WorkerThread.NoFailureMeansFull | core/worker_thread.cpp:59-75 | with no throwing task the pass reaches the end of the queue |
| WorkerThread.DrainRunsEachTaskOnce | core/worker_thread.cpp:59-75 | a pass runs a prefix of the queue, each task once. On `Pass` no task threw, the queue is empty and nothing is logged. On failure the front task is the first that threw, every earlier one returned normally, only its message is logged, it stays queued and the result is the fatal error |
| WorkerThread.WorkerThread.constructor | core/worker_thread.cpp:27-32 | an empty worker, parked on its spawned thread when `create_thread` is set |
| WorkerThread.WorkerThread.Park | core/worker_thread.cpp:34-43 | a second park fails with `runtime_error` and changes nothing; a first one parks on the caller's thread |
| WorkerThread.WorkerThread.DrainPass | core/worker_thread.cpp:59-75 | one loop iteration equals `Drained` of the old state |
| WorkerThread.WorkerThread.Execute | core/worker_thread.cpp:83-113 | inline run on the parked thread, FIFO append otherwise |
| WorkerThread.WorkerThread.ExecuteWait | core/worker_thread.cpp:115-134 | the caller is released exactly when the wrapper task gets to run normally |
| WorkerThread.RoundRobinTarget | core/worker_thread.cpp:160-167 | the target index is below the worker count |
| WorkerThread.RoundRobinReachesAll | core/worker_thread.h:163-167 | any `n` consecutive dispatches reach each of the `n` workers |
| WorkerThread.DefaultPoolSize | core/worker_thread.h:211 | a pool built without a count has one parked worker per logical core `hardware_concurrency()` reports |
| WorkerThread.WorkerPool.constructor | core/worker_thread.cpp:136-148 | exactly `num_workers` fresh workers, each parked, counter at 0; `num_workers` defaults to `hardware_concurrency()` |
| WorkerThread.WorkerPool.Execute | core/worker_thread.cpp:160-167 | the given task goes to worker `round_robin mod n`, the counter rises by one, other workers unchanged |
| WorkerThread.WorkerPool.Destroy | core/worker_thread.cpp:150-157 | every worker is deleted exactly once, in index order |
| KotlinWorker.SlotIsMod | src/main/kotlin/net/jibini/lemon/concurrency/impl/WorkerThreadImpl.kt:115-116 | the wrapped index is the successor modulo the buffer size |
| KotlinWorker.RingAdd | src/main/kotlin/net/jibini/lemon/concurrency/impl/WorkerThreadImpl.kt:112-117 | writing at `indexOut + queued` keeps the ring holding the queue in order, with the new task appended |
| KotlinWorker.RingTake | src/main/kotlin/net/jibini/lemon/concurrency/impl/WorkerThreadImpl.kt:149-151 | the slot at `indexOut` holds the oldest task; clearing it and advancing leaves the rest of the queue in order |
| KotlinWorker.PerformKeepsInv | src/main/kotlin/net/jibini/lemon/concurrency/impl/WorkerThreadImpl.kt:101-130 | a write keeps indices in range, free slots plus tasks equal to the size, and the ring FIFO |
| KotlinWorker.ConsumeKeepsInv | src/main/kotlin/net/jibini/lemon/concurrency/impl/WorkerThreadImpl.kt:144-173 | a consume step reads the oldest task and keeps the same invariant |
| KotlinWorker.WorkerThreadImpl.constructor | src/main/kotlin/net/jibini/lemon/concurrency/impl/WorkerThreadImpl.kt:49-77 | an empty buffer of the given size, indices 0, all slots free, not alive |
| KotlinWorker.WorkerThreadImpl.Perform | src/main/kotlin/net/jibini/lemon/concurrency/impl/WorkerThreadImpl.kt:101-130 | the new task is written at `indexIn`, only that slot changes, `indexIn` advances modulo the size, and the queue gains it at its end |
| KotlinWorker.WorkerThreadImpl.Consume | src/main/kotlin/net/jibini/lemon/concurrency/impl/WorkerThreadImpl.kt:144-173 | the oldest task runs, its exception is logged, its slot is cleared and `indexOut` advances modulo the size |
| KotlinWorker.WorkerThreadImpl.UseThisThread | src/main/kotlin/net/jibini/lemon/concurrency/impl/WorkerThreadImpl.kt:132-175 | refused with `IllegalStateException` on an alive worker; otherwise alive and every queued task runs in order |
| KotlinWorker.WorkerThreadImpl.Drain | src/main/kotlin/net/jibini/lemon/concurrency/impl/WorkerThreadImpl.kt:140-174 | the consumer loop runs the whole queue in write order and logs each failure |
| KotlinWorker.WorkerThreadImpl.Destroy | src/main/kotlin/net/jibini/lemon/concurrency/impl/WorkerThreadImpl.kt:177-182 | afterwards the worker is not alive; nothing else changes |
| KotlinWorker.WorkerPoolImpl.constructor | src/main/kotlin/net/jibini/lemon/concurrency/impl/WorkerPoolImpl.kt:39 | exactly `count` fresh workers, each started and empty |
| KotlinWorker.Wrap32 | src/main/kotlin/net/jibini/lemon/concurrency/impl/WorkerPoolImpl.kt:44 | the wrapped value is the one `Int` congruent to its argument modulo 2^32 |
| KotlinWorker.Wrap32Step | src/main/kotlin/net/jibini/lemon/concurrency/impl/WorkerPoolImpl.kt:49 | `getAndIncrement` on a wrapped value gives the wrap of the successor |
| KotlinWorker.CounterIsWrap32 | src/main/kotlin/net/jibini/lemon/concurrency/impl/WorkerPoolImpl.kt:44-49 | after `n` dispatches the counter is `n` wrapped to 32 bits |
| KotlinWorker.CounterBeforeWrap | src/main/kotlin/net/jibini/lemon/concurrency/impl/WorkerPoolImpl.kt:44-49 | for the first 2^31 dispatches the counter equals the number of earlier dispatches |
| KotlinWorker.KotlinRem | src/main/kotlin/net/jibini/lemon/concurrency/impl/WorkerPoolImpl.kt:49 | Kotlin's `%`: below the divisor in magnitude, with the sign of the dividend, and congruent to it |
| KotlinWorker.DispatchIndexAsWritten | src/main/kotlin/net/jibini/lemon/concurrency/impl/WorkerPoolImpl.kt:49 | an index it yields is in bounds and congruent to the counter |
| KotlinWorker.DispatchIndex | src/main/kotlin/net/jibini/lemon/concurrency/impl/WorkerPoolImpl.kt:49 | the corrected (`floorMod`) index is always below the pool size and congruent to the counter |
| KotlinWorker.DispatchIndexAgreesBeforeWrap | src/main/kotlin/net/jibini/lemon/concurrency/impl/WorkerPoolImpl.kt:49 | before the counter wraps, the written and the corrected index agree and equal the dispatch number modulo the size |
| KotlinWorker.DispatchOutOfBoundsIff | src/main/kotlin/net/jibini/lemon/concurrency/impl/WorkerPoolImpl.kt:49 | as written, the read is out of bounds exactly when the counter is negative and not a multiple of the size |
| KotlinWorker.DispatchAfterWrapThrows | src/main/kotlin/net/jibini/lemon/concurrency/impl/WorkerPoolImpl.kt:44-49 | the 2^31-st dispatch on three workers finds `Int.MIN_VALUE`, computes index -2 and throws, where `floorMod` gives 1 |
| KotlinWorker.WorkerPoolImpl.Perform | src/main/kotlin/net/jibini/lemon/concurrency/impl/WorkerPoolImpl.kt:46-50 | the counter is incremented with 32-bit wrap-around; the given task goes to the worker at the corrected index, the others are unchanged; with no workers the remainder throws `/ by zero` |
| KotlinWorker.WorkerPoolImpl.UseThisThread | src/main/kotlin/net/jibini/lemon/concurrency/impl/WorkerPoolImpl.kt:52-59 | exactly one new started worker is appended; the others are unchanged |
| KotlinWorker.WorkerPoolImpl.Destroy | src/main/kotlin/net/jibini/lemon/concurrency/impl/WorkerPoolImpl.kt:61-65 | every worker is destroyed; queues unchanged |
| Latch.Step | core/latch.cpp:33-56 | `count_up` adds one; `count_down` lowers the count by one exactly when it is positive |
| Latch.ApplyKeepsNonNegative | core/latch.cpp:33-56 | from a non-negative count, any mix of the two operations stays non-negative |
| Latch.DownsReachZero | core/latch.cpp:33-45 | `initial` count-downs release a latch built with `initial` |
| Latch.DownsAtZero | core/latch.cpp:35 | count-downs at zero change nothing |
| Latch.ApplyBounds | core/latch.cpp:33-56 | the count moves by at most the number of each operation |
| Latch.ApplyMonotone | core/latch.cpp:33-56 | a larger starting count never ends smaller |
| Latch.CountUpRearms | core/latch.cpp:47-56 | `count_up` re-arms a released latch, and one `count_down` releases it again |
| Latch.Latch.constructor | core/latch.cpp:17-20 | the count equals `initial`, 1 by default |
| Latch.Latch.Wait | core/latch.cpp:22-31 | passes exactly when the count is at most 0 |
| Latch.Latch.CountDown | core/latch.cpp:33-45 | the count after is `Step` of the count before |
| Latch.Latch.CountUp | core/latch.cpp:47-56 | the count after is `Step` of the count before |
| Deque.Deque.constructor | core/deque.h:42-45 | empty, `len` 0, `last` is the sentinel |
| Deque.Deque.Add | core/deque.h:52-59 | the element is appended, earlier nodes unchanged, `len` rises by one and still counts the nodes |
| Deque.Deque.Push | core/deque.h:65-73 | corrected push: the element is prepended and `len` rises by one, with `last` kept at the final node |
| Deque.Deque.Poll | core/deque.h:79-91 | on a non-empty deque, returns and unlinks the front; `last` falls back to the sentinel when it empties |
| Deque.Deque.Pop | core/deque.h:97-100 | the same as `poll` |
| Deque.Deque.Size | core/deque.h:106-109 | the number of elements |
| Deque.AddThenPoll | core/deque.h:52-91 | `add(x)` then `poll()` on an empty deque returns `x` and leaves it empty |
| Deque.AddAsWritten | core/deque.h:52-59 | the new node replaces whatever followed `last` |
| Deque.PushAsWritten | core/deque.h:65-73 | the node goes in front and `last` is not moved |
| Deque.PushCorrected | core/deque.h:65-73 | the node goes in front and `last` follows it when the deque was empty |
| Deque.AddKeepsCoherent | core/deque.h:52-59 | `add` keeps `last` at the final node and `len` equal to the node count |
| Deque.PushAsWrittenCoherentIffNonEmpty | core/deque.h:65-73 | the written `push` keeps that coherence exactly when the deque is not empty |
| Deque.PushCorrectedKeepsCoherent | core/deque.h:65-73 | the corrected `push` always keeps it |
| Deque.PushThenAddLosesElement | core/deque.h:52-73 | on an empty deque, `push(x)` then `add(y)` as written leaves only `y` while `len` is 2 |
| Deque.PushCorrectedThenAddKeepsBoth | core/deque.h:52-73 | with the corrected `push` the same steps keep `[x, y]` |
| StringSplit.FindFrom | core/bootstrap.cpp:58 | the first occurrence of the delimiter at or after a position, or none |
| StringSplit.Find | core/bootstrap.cpp:58 | the first occurrence, and none exactly when the delimiter does not occur |
| StringSplit.Split | core/bootstrap.cpp:53-68 | at least one element |
| StringSplit.SplitAtFind | core/bootstrap.cpp:58-63 | one loop round: the text before the first delimiter, then the rest after it |
| StringSplit.JoinSplit | core/bootstrap.cpp:58-67 | joining the elements with the delimiter gives back the input |
| StringSplit.SplitPartsAreFree | core/bootstrap.cpp:58-63 | no element contains the delimiter |
| StringSplit.SplitWithoutDelimiter | core/bootstrap.cpp:58-67 | with no occurrence, the one element is the input |
| StringSplit.SplitCount | core/bootstrap.cpp:58-67 | `k` non-overlapping occurrences give exactly `k + 1` elements |
| StringSplit.SplitString | core/bootstrap.cpp:53-68 | `output` keeps its old elements and gains exactly `Split(str, delim)` |
| ObjLoader.StrtolOfNatToString | core/bootstrap.cpp:191-192 | `strtol` reads back the decimal rendering of any index |
| ObjLoader.AddFace | core/bootstrap.cpp:169-199 | a face leaves the vertex and normal lists alone and always leaves a block open |
| ObjLoader.FaceCorners | core/bootstrap.cpp:186-199 | a face writes three vertices |
| ObjLoader.FaceCornerAt | core/bootstrap.cpp:186-199 | corner `j` writes the vertex of element `j + 1` |
| ObjLoader.AddFaceKeepsInv | core/bootstrap.cpp:169-199 | a new block is started when none exists or the current one is full; fill index in range; exactly three vertices written |
| ObjLoader.LineStepKeepsInv | core/bootstrap.cpp:145-200 | every line keeps the block invariant; an `f` line writes three vertices, any other none |
| ObjLoader.LoadAllKeepsInv | core/bootstrap.cpp:143-203 | a whole file keeps the invariant and writes three vertices per face line |
| ObjLoader.VertexLineGoesToItsList | core/bootstrap.cpp:154-166 | a `v` line goes to the normals when its second character is `n`, to the positions otherwise |
| ObjLoader.SplitThree | core/bootstrap.cpp:188-189 | a corner `a/b/c` splits into its three indices |
| ObjLoader.CornerOfRenderedIndices | core/bootstrap.cpp:186-199 | the corner `a/b/c` uses position `a - 1` and normal `c - 1` |
| ObjLoader.ReportedCountAsWritten | core/bootstrap.cpp:207-211 | the logged count as written, a `size_t` value |
| ObjLoader.ReportedCountIsTotal | core/bootstrap.cpp:207-211 | the intended count equals the number of vertices written |
| ObjLoader.ReportedCountAsWrittenWithBlocks | core/bootstrap.cpp:207-211 | with a block open, the count as written is the vertices written |
| ObjLoader.ReportedCountAsWrittenWithoutFaces | core/bootstrap.cpp:207-211 | without faces the count as written wraps to 2^64 - 196704 |
| ObjLoader.ObjLoader.constructor | core/bootstrap.cpp:140-141 | empty lists, no block, fill index 0 |
| ObjLoader.ObjLoader.ProcessLine | core/bootstrap.cpp:143-200 | the state after a line is `LineStep` of the state before |
| ObjLoader.ObjLoader.Face | core/bootstrap.cpp:168-199 | the state after a face is `AddFace` with its three corners |
| ObjLoader.ObjLoader.WriteCorners | core/bootstrap.cpp:186-199 | the three corners are appended to the current block, in order |
| ObjLoader.ObjLoader.WriteCorner | core/bootstrap.cpp:188-198 | one corner is written at the fill index |
| ObjLoader.ObjLoader.Load | core/bootstrap.cpp:143-203 | the state after the file is `LoadAll` of the lines |
| ObjLoader.ObjLoader.Report | core/bootstrap.cpp:207-218 | the report message with the intended count; the last block's count when a block exists |
| Logger.Spaces | core/logger.cpp:46-52 | exactly `n` spaces |
| Logger.JustifiedWidthZero | core/logger.cpp:42-53 | width 0 prints the message unchanged |
| Logger.JustifiedShape | core/logger.cpp:42-53 | width `w` prints exactly `w` characters: the first `min(w, len)` of the message, padded with spaces before it when left-justified and after it otherwise |
| Logger.Print | core/logger.cpp:42-53 | the padding loop yields `Justified` |
| Logger.SetField | core/logger.cpp:103-128 | a date field is overwritten with the value given |
| Logger.RunAppend | core/logger.cpp:55-207 | reading `a + b` is reading `a` then `b` |
| Logger.PlainTextIsCopied | core/logger.cpp:194-204 | text outside a token and without `%` is copied verbatim |
| Logger.PatternWithoutTokens | core/logger.cpp:194-204 | a pattern without `%` prints itself |
| Logger.SingleTokens | core/logger.cpp:151-185 | `%m`, `%n`, `%p` print the message, a newline, and the colour followed by the level |
| Logger.WidthTokens | core/logger.cpp:151-185 | a width pads the field; `-` sets left justification |
| Logger.UnknownTokenPrintsNothing | core/logger.cpp:187-188 | an unrecognised token character ends the token and prints nothing |
| Logger.TwoDigits | core/logger.cpp:107-128 | two characters |
| Logger.FourDigits | core/logger.cpp:103-106 | four characters |
| Logger.TwoLetterRun | core/logger.cpp:86-138 | two equal letters print that field as two zero-padded digits |
| Logger.FourLetterYearRun | core/logger.cpp:86-138 | `yyyy` prints `tm_year + 1900` as four digits |
| Logger.DateGroup | core/logger.cpp:86-138 | `%d{yyyy-MM-dd}` prints year, month `tm_mon + 1` and day, dash-separated |
| Logger.DateOpen | core/logger.cpp:139-150 | `%d{` opens a date group and prints nothing |
| Logger.DateGroupBody | core/logger.cpp:86-138 | inside the group, `yyyy-MM-dd}` prints the date and closes the group |
| Logger.MonthDayPiece | core/logger.cpp:86-138 | `MM-dd}` prints month and day two digits each |
| Logger.YearPiece | core/logger.cpp:86-138 | `yyyy-` prints the four-digit year and a dash |
| Logger.TwoLetterPiece | core/logger.cpp:86-138 | two equal letters and a separator print the field and the separator |
| Logger.LongRunsDivideByZero | core/logger.cpp:103-110 | a fifth `y` or a third `M` divides by zero |
| Logger.Logger.constructor | core/logger.cpp:29-34 | stores the pattern and the name |
| Logger.Logger.Named | core/logger.cpp:36-39 | uses the default pattern |
| Logger.Logger.Log | core/logger.cpp:55-207 | the character loop returns `Render` of the pattern |
| Logger.Logger.Debug | core/logger.cpp:209-212 | `log` with level `DEBUG` and its colour |
| Logger.Logger.Info | core/logger.cpp:214-217 | `log` with level `INFO` and its colour |
| Logger.Logger.Warn | core/logger.cpp:219-222 | `log` with level `WARN` and its colour |
| Logger.Logger.Error | core/logger.cpp:224-227 | `log` with level `ERROR` and its colour |
| ExtGlfw.ConstructCounts | ext_glfw/ext_glfw.cpp:18-34 | the count rises by one; `glfwInit` is called exactly when it was 0; the body throws inside `execute_wait` exactly when that init fails, after the increment |
| ExtGlfw.DestructCounts | ext_glfw/ext_glfw.cpp:36-51 | the count falls by one; `glfwTerminate` is called exactly when it was 1 |
| ExtGlfw.ApplyCount | ext_glfw/ext_glfw.cpp:25-43 | the count is constructions minus destructions |
| ExtGlfw.UpWhileContextsExist | ext_glfw/ext_glfw.cpp:18-51 | with matched lifetimes and successful inits, the library is up exactly while the count is positive |
| ExtGlfw.OneContextLifetime | ext_glfw/ext_glfw.cpp:18-51 | one context's lifetime initialises once and terminates once, back to 0 |
| ExtGlfw.ConstructTask | ext_glfw/ext_glfw.cpp:22-33 | the lambda handed to `execute_wait` throws exactly when `Construct` fails, with the init error |
| ExtGlfw.FailedInitNeverReturns | ext_glfw/ext_glfw.cpp:22-33 | a failed first init never lets the constructor return: on the main thread the message is logged and the wait never ends, elsewhere `park` stops with the fatal error |
| ExtGlfw.SucceededInitReturnsOnMainThread | ext_glfw/ext_glfw.cpp:22-33 | a construction on the main thread whose init succeeds is released |
| ExtGlfw.FailedFirstInit | ext_glfw/ext_glfw.cpp:25-29 | the first context's failed init leaves the count at 1 and the library down |
| ExtGlfw.GlfwContexts.constructor | ext_glfw/ext_glfw.cpp:16 | `context_count` starts at 0 |
| ExtGlfw.GlfwContexts.NewContext | ext_glfw/ext_glfw.cpp:18-34 | the body's effect on the counter and the trace is `Construct`; `Fail` is the throw after which the constructor never returns |
| ExtGlfw.GlfwContexts.DeleteContext | ext_glfw/ext_glfw.cpp:36-51 | the destructor's effect is `Destruct` |
| GlfwKotlin.UnitStepKeepsUp | src/main/kotlin/net/jibini/lemon/glfw/GLFWGlobal.kt:48-83 | with `count++`/`count--` steps, the library is up exactly while `count` is positive |
| GlfwKotlin.QuietAboveOne | src/main/kotlin/net/jibini/lemon/glfw/GLFWGlobal.kt:53-82 | moving between values other than 0 and 1 does nothing but store |
| GlfwKotlin.Rising | src/main/kotlin/net/jibini/lemon/glfw/GLFWGlobal.kt:63-81 | raising `count` from 0 one step at a time creates the library and starts polling once, at the first step |
| GlfwKotlin.Falling | src/main/kotlin/net/jibini/lemon/glfw/GLFWGlobal.kt:55-61 | lowering `count` one step at a time down to 0 terminates the library once, at the last step |
| GlfwKotlin.NestedContextsInitOnce | src/main/kotlin/net/jibini/lemon/glfw/GLFWGlobal.kt:48-83 | `n` contexts created and then destroyed init once at the first and terminate once at the last |
| GlfwKotlin.GlfwGlobal.constructor | src/main/kotlin/net/jibini/lemon/glfw/GLFWGlobal.kt:30-47 | no windows, count 0 |
| GlfwKotlin.GlfwGlobal.Link | src/main/kotlin/net/jibini/lemon/glfw/GLFWGlobal.kt:38-41 | the window is appended to `windows` |
| GlfwKotlin.GlfwGlobal.SetCount | src/main/kotlin/net/jibini/lemon/glfw/GLFWGlobal.kt:48-83 | the value is stored; to 0 from above terminates; to 1 from 0 or below inits and starts polling; otherwise nothing |
| GlfwKotlin.GlfwContext.constructor | src/main/kotlin/net/jibini/lemon/glfw/GLFWContext.kt:27-69 | a started 512-slot worker, no window, not closing, `contextActive` locked, `GLFWGlobal.count` raised by one |
| GlfwKotlin.GlfwContext.SetWindowCount | src/main/kotlin/net/jibini/lemon/glfw/GLFWContext.kt:38-47 | the value is stored first; above 1 throws; 0 sets `shouldClose`; 1 leaves it |
| GlfwKotlin.GlfwContext.ActivateContext | src/main/kotlin/net/jibini/lemon/glfw/GLFWContext.kt:60-64 | `contextActive` becomes unlocked |
| GlfwKotlin.GlfwContext.Perform | src/main/kotlin/net/jibini/lemon/glfw/GLFWContext.kt:77-84 | with the context active, the given task is queued on the worker |
| GlfwKotlin.GlfwContext.Destroy | src/main/kotlin/net/jibini/lemon/glfw/GLFWContext.kt:71-75 | the worker stops, then `GLFWGlobal.count` falls by one |
| ContextDiscovery.LookupAfterRegister | src/main/kotlin/net/jibini/lemon/context/impl/ContextObjectDiscoveryImpl.kt:75-80 | looking up the context and then the object yields the implementation |
| ContextDiscovery.RegisterLeavesOthers | src/main/kotlin/net/jibini/lemon/context/impl/ContextObjectDiscoveryImpl.kt:78-79 | every other pair keeps its entry |
| ContextDiscovery.RegisterOverwrites | src/main/kotlin/net/jibini/lemon/context/impl/ContextObjectDiscoveryImpl.kt:79 | registering the same pair again replaces the implementation |
| ContextDiscovery.FirstRegistrationCreatesInnerMap | src/main/kotlin/net/jibini/lemon/context/impl/ContextObjectDiscoveryImpl.kt:78 | a context's first registration creates its inner map holding that one entry |
| ContextDiscovery.RegisterAllLookup | src/main/kotlin/net/jibini/lemon/context/impl/ContextObjectDiscoveryImpl.kt:51-64 | after a sequence of registrations, the last one for a pair wins; other pairs keep their entries |
| ContextDiscovery.ContextObjectDiscovery.constructor | src/main/kotlin/net/jibini/lemon/context/impl/ContextObjectDiscoveryImpl.kt:39-65 | starting empty, every found class is registered in scan order |
| ContextDiscovery.ContextObjectDiscovery.RegisterImplementation | src/main/kotlin/net/jibini/lemon/context/impl/ContextObjectDiscoveryImpl.kt:75-80 | the map after is `Register` of the map before |

## Left out

- Real concurrency is not modelled: thread creation, mutexes, condition variables, kotlinx `Mutex`/`Semaphore` suspension, `runBlocking` and the latch's spin loops. Every blocking wait is a precondition, and a thread's loop is an explicit step.
- WorkerThread.WorkerThread.ExecuteWait: the completion handshake of `execute_wait` is reduced to "the wrapper task runs in the next drain pass". The model does not say when the caller wakes.
- KotlinWorker.WorkerThreadImpl.Perform: `perform` with `wait = true` (`performWait`, its wrapper task and its semaphore) is not modelled. The wait flag is ignored.
- KotlinWorker.WorkerThreadImpl.UseThisThread: the consumer loop runs until no task is available. The real loop blocks and waits for the next task.
- The Kotlin pool and `Worker.create` start each worker's thread. The model calls `useThisThread` directly.
- GLFWGlobal's polling thread loop and `poll` (event polling, window close callbacks) are left out. Starting that thread is a trace event.
- The GLFW, GLEW and OpenGL calls are left out; they are trace events. Whether `glfwInit` succeeds is an input. What the main thread does with a posted call is not part of this model.
- `GLFWContext.windowHints` and `pointer` are left out: no operation in the modelled code uses them.
- GlfwKotlin.GlfwContext.ActivateContext: the subclass's `contextActive.unlock()` is in code outside this model. The method only flips the mutex state.
- The classpath scan and reflection in `ContextObjectDiscoveryImpl`'s `init` are left out. Their result, a list of found classes, is the constructor's input, and the debug log line for each class is not modelled.
- Floating point is left out: `strtof` coordinates stay the text they are parsed from, and no vector math is modelled.
- The GPU buffer objects of the OBJ loader (`create_buffer`, `map_typed`, `unmap`) are left out. A block is a sequence of the vertices written into it. Texture coordinates, colour and body index are constants in the source and are not modelled.
- ObjLoader.ObjLoader.ProcessLine: a line the source would read out of bounds is excluded by a precondition. That covers a `v` line with fewer than three coordinates, and a face corner with fewer than three `/` parts or an index outside the loaded lists. A `vt` line is stored as a position, as the source does.
- ObjLoader: `MESH_BLOCK_SIZE` is defined twice. The model uses the later definition, 65568 * 3 (core/static_mesh.h:15), which replaces 16392 * 3 (core/mat_vec.h:13).
- Logger.Logger.Log: output goes to a returned string instead of `std::cout`, the global log mutex is not modelled, and the clock is an input record. The date/time fields are unbounded naturals, and the digit accumulator's `int` overflow is not modelled.
- Logger: date runs longer than the pattern letters allow divide by zero. This is modelled as an error result.
- `sem_polyfill.h` is commented out in the source and is not part of this model.
- KotlinWorker.WorkerThreadImpl.constructor: requires `bufferSize > 0`. With 0 slots, `Semaphore(bufferSize, bufferSize)` at src/main/kotlin/net/jibini/lemon/concurrency/impl/WorkerThreadImpl.kt:65 throws `IllegalArgumentException`, because a kotlinx semaphore needs at least one permit. The size is a natural number here, so a negative one, for which `arrayOfNulls(bufferSize)` at src/main/kotlin/net/jibini/lemon/concurrency/impl/WorkerThreadImpl.kt:49 throws `NegativeArraySizeException`, is not modelled either. Neither throw is modelled; `Worker.create` passes 512 unless told otherwise.
- KotlinWorker.WorkerPoolImpl.constructor: requires `bufferSize > 0` for the same reason. A pool of at least one worker with 0 slots, or with a negative size, throws from the first worker's construction. The worker count is a natural number here, so a negative count, for which `MutableList(workers)` at src/main/kotlin/net/jibini/lemon/concurrency/impl/WorkerPoolImpl.kt:39 throws `IllegalArgumentException`, is not modelled. None of these throws is modelled.
- WorkerThread.WorkerPool.Destroy: `~worker_pool` deletes each worker while the detached thread parked on it may still be running its loop. The model records only the deletions, not that later use of a deleted worker.
- StringSplit.SplitString: requires a non-empty delimiter. An empty one is found at index 0 and `erase` removes nothing, so the C++ loop at core/bootstrap.cpp:58-64 never ends; that non-terminating run is not modelled.
- The comments in `print` (core/logger.cpp:44 and 50) say a left-justified message is printed first, but the code prints the padding first when `left_justify` is set. This is also the reverse of Log4j's `-` flag. The model follows the code (`Logger.JustifiedShape`, `Logger.WidthTokens`).
- WorkerThread.WorkerThread.Execute: only exceptions derived from `std::exception` are caught and logged. Anything else thrown by an inline task leaves `execute` and is not modelled, because a task's failure is always a logged message here.
- WorkerThread.WorkerThread.DrainPass: likewise, `park` catches only `std::exception`; another throw ends the parked thread without the fatal error, and is not modelled.
- KotlinWorker.WorkerThreadImpl.Consume: the consumer catches only `Exception`. A `Throwable` that is not one (an `Error` such as `StackOverflowError`) ends the worker's thread; the model has no such failure.
- WorkerThread.WorkerPool.constructor: `num_workers` is a C++ `int` and the model takes a natural number, so a negative count (a failed array allocation) is not modelled. `hardware_concurrency()` may report 0; the pool is then empty and `execute` divides by zero, which the model excludes by requiring a worker.
- WorkerThread.WorkerPool.Execute: `round_robin` is not declared in core/worker_thread.h, so its width is unknown; it is an unbounded counter here and no wrap-around is modelled.
- Latch.Latch.CountUp: `count` is a `std::atomic_int`, which wraps from `INT_MAX` to `INT_MIN`, after which `wait` passes. The model's count is unbounded, so that wrap is not modelled.
- ExtGlfw.Apply: the counter model goes on after a failed `glfwInit`, where the program hangs (the main thread waits forever) or stops (the fatal error leaves `main`). ApplyCount therefore also covers sequences the program never reaches; FailedInitNeverReturns states what happens instead.
- Deque.PushAsWritten: core/deque.h:67 declares `T* n = head->next`, which does not convert a `deque_node<T>*`, and line 69 stores `n` back into a node's `next`. `push` is ill-formed as soon as it is instantiated, and nothing in the modelled code instantiates it. The model reads `n` as a node pointer.

## Findings

| source | as written | input that shows it | evidently intended | confidence | as-written member | corrected member |
|---|---|---|---|---|---|---|
| core/deque.h:65-73 | `push` never moves `last`, so on an empty deque `last` stays at the sentinel | `push(x)` on an empty deque, then `add(y)`: `add` links after the sentinel, so only `y` is reachable while `len` is 2 | `push` on an empty deque also moves `last` to the new node | high (not executed) | Deque.PushThenAddLosesElement | Deque.PushCorrected |
| core/bootstrap.cpp:207-211 | the vertex count `(blocks.size() - 1) * MESH_BLOCK_SIZE + i` is computed in `size_t` | an OBJ file with no `f` lines: `blocks.size()` is 0, so `0 - 1` wraps and the log reports 2^64 - 196704 vertices | 0 vertices when no block was opened | high (not executed) | ObjLoader.ReportedCountAsWrittenWithoutFaces | ObjLoader.ReportedCountIsTotal |
| src/main/kotlin/net/jibini/lemon/concurrency/impl/WorkerPoolImpl.kt:44-49 | the dispatch index is `roundRobin.getAndIncrement() % workers.size` on a 32-bit `AtomicInteger` | 2^31 dispatches to a pool of three workers: the counter wraps to `Int.MIN_VALUE`, Kotlin's `%` gives -2 and `workers[-2]` throws `IndexOutOfBoundsException` | a non-negative index below the size, as `Math.floorMod` gives | high (not executed) | KotlinWorker.DispatchAfterWrapThrows | KotlinWorker.DispatchIndex |

=== FILE: common.dfy ===
/**
 * Vocabulary shared by the engine's components: optional values, pass/fail
 * outcomes for operations that throw, thread identities and tasks.
 */
module Common {

  datatype Option<T> = None | Some(value: T)

  /** The result of an operation that either returns normally or throws with a message. */
  datatype Outcome<E> = Pass | Fail(error: E)

  /** Identity of an operating-system thread (`std::thread::id`, `Thread`). */
  type ThreadId = nat

  /**
   * A submitted unit of work. What the engine does with a task depends only on
   * which task it is and whether running it throws; `failure` holds the
   * message of the exception it throws, if it does.
   */
  datatype Task = Task(id: nat, failure: Option<string>)

  /** The messages of the tasks in `ts` that throw, in order. */
  function FailureMessages(ts: seq<Task>): (msgs: seq<string>)
    ensures |msgs| <= |ts|
    ensures (forall k :: 0 <= k < |ts| ==> ts[k].failure.None?) ==> msgs == []
  {
    if ts == [] then []
    else (if ts[0].failure.Some? then [ts[0].failure.value] else []) + FailureMessages(ts[1..])
  }

  lemma {:induction false} FailureMessagesAppend(a: seq<Task>, b: seq<Task>)
    ensures FailureMessages(a + b) == FailureMessages(a) + FailureMessages(b)
  {
    if a == [] {
      assert a + b == b;
    } else {
      var h := if a[0].failure.Some? then [a[0].failure.value] else [];
      assert (a + b)[0] == a[0];
      assert (a + b)[1..] == a[1..] + b;
      assert FailureMessages(a + b) == h + FailureMessages(a[1..] + b);
      FailureMessagesAppend(a[1..], b);
      assert h + (FailureMessages(a[1..]) + FailureMessages(b)) == (h + FailureMessages(a[1..])) + FailureMessages(b);
    }
  }

  /** The decimal digit character for `d`. */
  function DigitChar(d: nat): (c: char)
    requires d < 10
    ensures '0' <= c <= '9'
  {
    (('0' as int) + d) as char
  }

  /** Decimal rendering of a natural number, as `operator<<` and `std::to_string` print it. */
  function NatToString(n: nat): (s: string)
    ensures 1 <= |s|
    ensures forall k :: 0 <= k < |s| ==> '0' <= s[k] <= '9'
    ensures n < 10 <==> |s| == 1
    decreases n
  {
    if n < 10 then [DigitChar(n)] else NatToString(n / 10) + [DigitChar(n % 10)]
  }

  /** Division with remainder is unique: the quotient and remainder are determined by `x` and `n`. */
  lemma ModUnique(x: int, n: int, q: int, r: int)
    requires n > 0 && 0 <= r < n && x == q * n + r
    ensures x % n == r && x / n == q
  {
    var q' := x / n;
    var r' := x % n;
    assert x == q' * n + r';
    assert (q - q') * n == r' - r;
    if q > q' {
      MulMonotone(q - q', 1, n);
    } else if q < q' {
      MulMonotone(q' - q, 1, n);
    }
  }

  /** Multiplying by a non-negative factor keeps the order. */
  lemma MulMonotone(a: int, b: int, n: int)
    requires a >= b && n >= 0
    ensures a * n >= b * n
  {
  }
}

=== FILE: context_discovery.dfy ===
/**
 * The registry of context-specific implementations: for every context
 * extension type, the implementation class to use for each graphical object
 * type. `ContextObjectDiscoveryImpl` fills it once, from the annotated classes
 * a classpath scan finds, and callers may add to it by hand.
 *
 * Classes are identified by name. The classpath scan itself and the
 * reflection on each found class become the constructor's input: the list of
 * (context type, object type, implementation) triples in the order the scan
 * returns them.
 */
module ContextDiscovery {
  import opened Common

  type ClassName = string

  /** Context type to (object type to implementation class). */
  type Registry = map<ClassName, map<ClassName, ClassName>>

  /** One annotated class the scan found: `@ContextObject(contextType, objectType)` on `impl`. */
  datatype Found = Found(contextType: ClassName, objectType: ClassName, impl: ClassName)

  /** The implementation registered for `obj` under `ctx`, if any. */
  function Lookup(r: Registry, ctx: ClassName, obj: ClassName): Option<ClassName>
  {
    if ctx in r && obj in r[ctx] then Some(r[ctx][obj]) else None
  }

  /** `registerImplementation`: `getOrPut` an empty inner map for `ctx`, then put `impl` under `obj`. */
  function Register(r: Registry, ctx: ClassName, obj: ClassName, impl: ClassName): Registry
  {
    var objects := if ctx in r then r[ctx] else map[];
    r[ctx := objects[obj := impl]]
  }

  /** After a registration, looking up `ctx` and then `obj` yields `impl`. */
  lemma LookupAfterRegister(r: Registry, ctx: ClassName, obj: ClassName, impl: ClassName)
    ensures Lookup(Register(r, ctx, obj, impl), ctx, obj) == Some(impl)
  {
  }

  /** A registration leaves every other (context, object) pair as it was. */
  lemma RegisterLeavesOthers(r: Registry, ctx: ClassName, obj: ClassName, impl: ClassName,
                             ctx': ClassName, obj': ClassName)
    requires ctx' != ctx || obj' != obj
    ensures Lookup(Register(r, ctx, obj, impl), ctx', obj') == Lookup(r, ctx', obj')
  {
  }

  /** Registering the same pair again replaces the earlier implementation. */
  lemma RegisterOverwrites(r: Registry, ctx: ClassName, obj: ClassName, first: ClassName, second: ClassName)
    ensures Register(Register(r, ctx, obj, first), ctx, obj, second) == Register(r, ctx, obj, second)
  {
    var objects := if ctx in r then r[ctx] else map[];
    assert objects[obj := first][obj := second] == objects[obj := second];
  }

  /**
   * The first registration for a context creates its inner map, holding just
   * that one entry; the registry gains exactly that context.
   */
  lemma FirstRegistrationCreatesInnerMap(r: Registry, ctx: ClassName, obj: ClassName, impl: ClassName)
    requires ctx !in r
    ensures Register(r, ctx, obj, impl)[ctx] == map[obj := impl]
    ensures Register(r, ctx, obj, impl).Keys == r.Keys + {ctx}
  {
  }

  /** The registry after registering every found class, in order, starting from `r`. */
  function RegisterAll(r: Registry, found: seq<Found>): Registry
    decreases |found|
  {
    if found == [] then r
    else
      var f := found[|found| - 1];
      Register(RegisterAll(r, found[..|found| - 1]), f.contextType, f.objectType, f.impl)
  }

  /** The implementation of the last found class for `ctx` and `obj`, if any. */
  function LastFound(found: seq<Found>, ctx: ClassName, obj: ClassName): Option<ClassName>
    decreases |found|
  {
    if found == [] then None
    else if found[|found| - 1].contextType == ctx && found[|found| - 1].objectType == obj then Some(found[|found| - 1].impl)
    else LastFound(found[..|found| - 1], ctx, obj)
  }

  /**
   * When several found classes implement the same object for the same
   * context, the one found last wins; pairs no found class mentions keep what
   * they had.
   */
  lemma {:induction false} RegisterAllLookup(r: Registry, found: seq<Found>, ctx: ClassName, obj: ClassName)
    ensures Lookup(RegisterAll(r, found), ctx, obj)
      == if LastFound(found, ctx, obj).Some? then LastFound(found, ctx, obj) else Lookup(r, ctx, obj)
    decreases |found|
  {
    if found != [] {
      var f := found[|found| - 1];
      var before := RegisterAll(r, found[..|found| - 1]);
      if f.contextType == ctx && f.objectType == obj {
        LookupAfterRegister(before, ctx, obj, f.impl);
      } else {
        RegisterLeavesOthers(before, f.contextType, f.objectType, f.impl, ctx, obj);
        RegisterAllLookup(r, found[..|found| - 1], ctx, obj);
      }
    }
  }

  /** The `ContextObjectDiscoveryImpl` object and its `discoveredObjects` map. */
  class ContextObjectDiscovery {
    var discoveredObjects: Registry

    /**
     * The `init` block: starting from an empty map, every class the scan
     * found is registered under its annotation's context and object types.
     */
    constructor (found: seq<Found>)
      ensures discoveredObjects == RegisterAll(map[], found)
    {
      discoveredObjects := map[];
      new;
      var i := 0;
      while i < |found|
        invariant 0 <= i <= |found|
        invariant discoveredObjects == RegisterAll(map[], found[..i])
      {
        assert found[..i + 1][..i] == found[..i];
        RegisterImplementation(found[i].contextType, found[i].objectType, found[i].impl);
        i := i + 1;
      }
      assert found[..|found|] == found;
    }

    /** `registerImplementation`. */
    method RegisterImplementation(ctx: ClassName, obj: ClassName, impl: ClassName)
      modifies this
      ensures discoveredObjects == Register(old(discoveredObjects), ctx, obj, impl)
    {
      var objects: map<ClassName, ClassName>;
      if ctx in discoveredObjects {
        objects := discoveredObjects[ctx];
      } else {
        objects := map[];
        discoveredObjects := discoveredObjects[ctx := objects];
      }
      objects := objects[obj := impl];
      discoveredObjects := discoveredObjects[ctx := objects];
    }
  }
}

=== FILE: deque.dfy ===
/**
 * The engine's double-ended queue: a singly linked list behind a sentinel
 * `head` node, with a `last` pointer for appending and an element count
 * `len`. `add` appends, `push` prepends, `poll` and `pop` remove the front.
 *
 * The class below uses the corrected `push`, which also moves `last` when it
 * links the first node. `Links`, `AddAsWritten` and `PushAsWritten` model the
 * pointer updates as written, reading `push`'s saved `n` as a node pointer,
 * and show how the C++ `push` loses an element.
 */
module Deque {

  class Node<T(0)> {
    var data: T
    var next: Node?<T>

    /** A node with default data and no successor. */
    constructor ()
      ensures next == null
    {
      next := null;
    }
  }

  class Deque<T(0)> {
    var len: int
    const head: Node<T>
    var last: Node<T>

    /** The nodes after the sentinel, in list order. */
    ghost var nodes: seq<Node<T>>
    /** The elements, front first. */
    ghost var Contents: seq<T>

    ghost predicate Valid()
      reads this, head, nodes
    {
      && |nodes| == |Contents| == len
      && (forall i :: 0 <= i < |nodes| ==> nodes[i] != head && nodes[i].data == Contents[i])
      && (forall i, j :: 0 <= i < j < |nodes| ==> nodes[i] != nodes[j])
      && head.next == (if nodes == [] then null else nodes[0])
      && (forall i :: 0 <= i < |nodes| - 1 ==> nodes[i].next == nodes[i + 1])
      && (nodes != [] ==> nodes[|nodes| - 1].next == null)
      && last == (if nodes == [] then head else nodes[|nodes| - 1])
    }

    /** A new deque is empty and `last` is the sentinel. */
    constructor ()
      ensures Valid() && fresh(head) && nodes == [] && Contents == [] && len == 0 && last == head
    {
      len := 0;
      var h := new Node<T>();
      head := h;
      last := h;
      nodes := [];
      Contents := [];
    }

    /** `add`: link a new node after `last`, move `last` to it, then count it. */
    method Add(element: T)
      requires Valid()
      modifies this, last
      ensures Valid() && |nodes| > 0 && nodes[..|nodes| - 1] == old(nodes) && fresh(nodes[|nodes| - 1])
      ensures Contents == old(Contents) + [element] && len == old(len) + 1
    {
      ghost var ns := nodes;
      var n := new Node<T>();
      last.next := n;
      last := last.next;
      last.data := element;
      len := len + 1;
      nodes := nodes + [n];
      Contents := Contents + [element];
      assert forall i :: 0 <= i < |ns| ==> nodes[i] == ns[i];
    }

    /**
     * `push`, corrected: link a new node right after the sentinel and count it;
     * when the deque was empty the new node is also the last one.
     */
    method Push(element: T)
      requires Valid()
      modifies this, head
      ensures Valid() && |nodes| > 0 && nodes[1..] == old(nodes) && fresh(nodes[0])
      ensures Contents == [element] + old(Contents) && len == old(len) + 1
    {
      var first := head.next;
      var n := new Node<T>();
      head.next := n;
      n.next := first;
      n.data := element;
      if first == null {
        last := n;
      }
      len := len + 1;
      nodes := [n] + nodes;
      Contents := [element] + Contents;
    }

    /**
     * `poll`: unlink the first node and return its element; when the list
     * becomes empty `last` goes back to the sentinel. The deque must not be
     * empty (`deque.h` dereferences a null pointer then).
     */
    method Poll() returns (val: T)
      requires Valid() && len > 0
      modifies this, head
      ensures Valid() && nodes == old(nodes)[1..]
      ensures val == old(Contents)[0] && Contents == old(Contents)[1..] && len == old(len) - 1
      ensures Contents == [] ==> last == head
    {
      val := head.next.data;
      // the unlinked node `d` is freed
      head.next := head.next.next;
      len := len - 1;
      if head.next == null {
        last := head;
      }
      nodes := nodes[1..];
      Contents := Contents[1..];
    }

    /** `pop`: the same as `poll`. */
    method Pop() returns (val: T)
      requires Valid() && len > 0
      modifies this, head
      ensures Valid() && nodes == old(nodes)[1..]
      ensures val == old(Contents)[0] && Contents == old(Contents)[1..] && len == old(len) - 1
    {
      val := Poll();
    }

    /** `size`: the number of elements. */
    method Size() returns (n: int)
      requires Valid()
      ensures n == |Contents|
    {
      n := len;
    }
  }

  /** `add(x)` and then `poll()` on an empty deque hand back `x` and leave it empty. */
  method AddThenPoll<T(0)>(x: T) returns (y: T, d: Deque<T>)
    ensures y == x && d.Valid() && d.Contents == [] && d.len == 0 && d.last == d.head
  {
    d := new Deque<T>();
    d.Add(x);
    y := d.Poll();
  }

  // ---------------------------------------------------------------------------
  // The pointer updates as written
  // ---------------------------------------------------------------------------

  /**
   * The list as seen from the sentinel: `items` are the elements reachable
   * from `head`, `lastAt` is the position `last` points at (-1 for the
   * sentinel itself) and `len` is the counter.
   */
  datatype Links<T> = Links(items: seq<T>, lastAt: int, len: int)

  /** The state a correct deque keeps: `last` at the final node and `len` counting the nodes. */
  predicate Coherent<T>(l: Links<T>)
  {
    l.lastAt == |l.items| - 1 && l.len == |l.items|
  }

  function Empty<T>(): Links<T>
  {
    Links([], -1, 0)
  }

  /** `add` as written: the new node replaces whatever followed `last`. */
  function AddAsWritten<T>(l: Links<T>, x: T): (r: Links<T>)
    requires -1 <= l.lastAt < |l.items|
    ensures r.lastAt == |r.items| - 1 && r.len == l.len + 1
    ensures r.items == l.items[..l.lastAt + 1] + [x]
  {
    Links(l.items[..l.lastAt + 1] + [x], l.lastAt + 1, l.len + 1)
  }

  /** `push` as written: the node goes in front and `last` is not touched. */
  function PushAsWritten<T>(l: Links<T>, x: T): (r: Links<T>)
    requires -1 <= l.lastAt < |l.items|
    ensures r.items == [x] + l.items && r.len == l.len + 1
    ensures -1 <= r.lastAt < |r.items|
  {
    Links([x] + l.items, if l.lastAt == -1 then -1 else l.lastAt + 1, l.len + 1)
  }

  /** `push` corrected: as written, but `last` moves to the new node when it was the sentinel. */
  function PushCorrected<T>(l: Links<T>, x: T): (r: Links<T>)
    requires -1 <= l.lastAt < |l.items|
    ensures r.items == [x] + l.items && r.len == l.len + 1
  {
    Links([x] + l.items, l.lastAt + 1, l.len + 1)
  }

  /** `add` keeps a coherent list coherent and appends exactly its element. */
  lemma AddKeepsCoherent<T>(l: Links<T>, x: T)
    requires Coherent(l)
    ensures Coherent(AddAsWritten(l, x)) && AddAsWritten(l, x).items == l.items + [x]
  {
    assert l.items[..l.lastAt + 1] == l.items;
  }

  /** The written `push` keeps a coherent list coherent exactly when the list is not empty. */
  lemma PushAsWrittenCoherentIffNonEmpty<T>(l: Links<T>, x: T)
    requires Coherent(l)
    ensures Coherent(PushAsWritten(l, x)) <==> |l.items| > 0
  {
  }

  /** The corrected `push` keeps every coherent list coherent. */
  lemma PushCorrectedKeepsCoherent<T>(l: Links<T>, x: T)
    requires Coherent(l)
    ensures Coherent(PushCorrected(l, x))
  {
  }

  /**
   * On an empty deque, `push(x)` then `add(y)` as written leaves only `y`
   * reachable while the counter says two: the pushed node is overwritten.
   */
  lemma PushThenAddLosesElement<T>(x: T, y: T)
    ensures AddAsWritten(PushAsWritten(Empty(), x), y) == Links([y], 0, 2)
  {
  }

  /** With the corrected `push` the same steps keep both elements, in order. */
  lemma PushCorrectedThenAddKeepsBoth<T>(x: T, y: T)
    ensures AddAsWritten(PushCorrected(Empty(), x), y) == Links([x, y], 1, 2)
  {
  }
}

=== FILE: ext_glfw.dfy ===
/**
 * The C++ GLFW extension's reference count. Every `glfw_context` adds one to
 * the static `context_count` when it is constructed and takes one away when it
 * is destroyed; the construction that finds the count at zero initialises the
 * GLFW library, and the destruction that finds it at one terminates it.
 *
 * The library calls and the log lines become events in a trace. Whether
 * `glfwInit` succeeds is an input. Both bodies run on the main thread through
 * `execute_wait`; the model runs them in sequence. The exception a failed
 * `glfwInit` throws stays inside that call: the main worker catches it, so the
 * constructor never returns (see `FailedInitNeverReturns`).
 */
module ExtGlfw {
  import opened Common
  import opened WorkerThread

  const InitFailedError: string := "Could not initialize GLFW windowing library"
  const InitializedMessage: string := "Initialized global GLFW context"
  const TerminatingMessage: string := "Terminating global GLFW context"

  datatype GlfwEvent =
    | GlfwInit(succeeded: bool)   // `glfwInit()` and what it returned
    | GlfwTerminate               // `glfwTerminate()`
    | LogInfo(message: string)    // `log.info(...)`

  /** The shared counter and everything the library calls have done so far. */
  datatype Library = Library(count: int, events: seq<GlfwEvent>)

  /** `context_count` starts at zero and nothing has happened yet. */
  function Initial(): Library
  {
    Library(0, [])
  }

  /**
   * The constructor's body, the lambda it hands to `execute_wait`:
   * `fetch_add(1)` first; when the old value was 0, `glfwInit` is called, and
   * its failure throws after the count was raised. `Fail` is that throw: the
   * body stops there, and the constructor waiting for it is never released.
   */
  function Construct(l: Library, initSucceeds: bool): (Library, Outcome<string>)
  {
    var raised := l.(count := l.count + 1);
    if l.count != 0 then (raised, Pass)
    else if !initSucceeds then (raised.(events := l.events + [GlfwInit(false)]), Fail(InitFailedError))
    else (raised.(events := l.events + [GlfwInit(true), LogInfo(InitializedMessage)]), Pass)
  }

  /** The destructor's body: `fetch_sub(1)`; when the old value was 1 the library is terminated. */
  function Destruct(l: Library): Library
  {
    var lowered := l.(count := l.count - 1);
    if l.count == 1 then lowered.(events := l.events + [LogInfo(TerminatingMessage), GlfwTerminate])
    else lowered
  }

  // ---------------------------------------------------------------------------
  // Properties of one step
  // ---------------------------------------------------------------------------

  /** A construction raises the count by one and calls `glfwInit` exactly when the count was 0. */
  lemma ConstructCounts(l: Library, ok: bool)
    ensures Construct(l, ok).0.count == l.count + 1
    ensures |Construct(l, ok).0.events| > |l.events| <==> l.count == 0
    ensures Construct(l, ok).0.events[..|l.events|] == l.events
    ensures l.count == 0 ==> Construct(l, ok).0.events[|l.events|] == GlfwInit(ok)
    ensures Construct(l, ok).1.Fail? <==> l.count == 0 && !ok
  {
  }

  /** A destruction lowers the count by one and calls `glfwTerminate` exactly when the count was 1. */
  lemma DestructCounts(l: Library)
    ensures Destruct(l).count == l.count - 1
    ensures GlfwTerminate in Destruct(l).events[|l.events|..] <==> l.count == 1
    ensures Destruct(l).events[..|l.events|] == l.events
  {
    if l.count == 1 {
      assert Destruct(l).events[|l.events|..] == [LogInfo(TerminatingMessage), GlfwTerminate];
    } else {
      assert Destruct(l).events[|l.events|..] == [];
    }
  }

  // ---------------------------------------------------------------------------
  // Sequences of constructions and destructions
  // ---------------------------------------------------------------------------

  datatype Op = New(initSucceeds: bool) | Delete

  function Apply(l: Library, ops: seq<Op>): Library
    decreases |ops|
  {
    if ops == [] then l
    else
      var next := if ops[0].New? then Construct(l, ops[0].initSucceeds).0 else Destruct(l);
      Apply(next, ops[1..])
  }

  function News(ops: seq<Op>): nat
  {
    if ops == [] then 0 else (if ops[0].New? then 1 else 0) + News(ops[1..])
  }

  /** The count moves by the number of constructions minus the number of destructions. */
  lemma {:induction false} ApplyCount(l: Library, ops: seq<Op>)
    ensures Apply(l, ops).count == l.count + News(ops) - (|ops| - News(ops))
    decreases |ops|
  {
    if ops != [] {
      var next := if ops[0].New? then Construct(l, ops[0].initSucceeds).0 else Destruct(l);
      ApplyCount(next, ops[1..]);
    }
  }

  /** The library is up when the last `glfwInit`/`glfwTerminate` in the trace is a successful `glfwInit`. */
  function Up(events: seq<GlfwEvent>): bool
  {
    if events == [] then false
    else if events[|events| - 1].GlfwInit? then events[|events| - 1].succeeded
    else if events[|events| - 1].GlfwTerminate? then false
    else Up(events[..|events| - 1])
  }

  lemma UpOfAppend(events: seq<GlfwEvent>, more: seq<GlfwEvent>)
    requires forall k :: 0 <= k < |more| ==> more[k].LogInfo?
    ensures Up(events + more) == Up(events)
    decreases |more|
  {
    if more != [] {
      var shorter := events + more[..|more| - 1];
      assert (events + more)[..|events + more| - 1] == shorter;
      assert (events + more)[|events + more| - 1] == more[|more| - 1];
      assert more[|more| - 1].LogInfo?;
      assert Up(events + more) == Up(shorter);
      UpOfAppend(events, more[..|more| - 1]);
    } else {
      assert events + more == events;
    }
  }

  /** Every destruction undoes a construction, and every `glfwInit` succeeds. */
  predicate Matched(count: int, ops: seq<Op>)
    decreases |ops|
  {
    ops == [] ||
    (if ops[0].New? then ops[0].initSucceeds && Matched(count + 1, ops[1..])
     else count > 0 && Matched(count - 1, ops[1..]))
  }

  /**
   * With matched constructions and destructions and no failing `glfwInit`,
   * the library is initialised exactly while at least one context exists.
   */
  lemma {:induction false} UpWhileContextsExist(l: Library, ops: seq<Op>)
    requires l.count >= 0 && (Up(l.events) <==> l.count > 0)
    requires Matched(l.count, ops)
    ensures Apply(l, ops).count >= 0
    ensures Up(Apply(l, ops).events) <==> Apply(l, ops).count > 0
    decreases |ops|
  {
    if ops != [] {
      var next := if ops[0].New? then Construct(l, true).0 else Destruct(l);
      if ops[0].New? {
        if l.count == 0 {
          UpOfAppend(l.events + [GlfwInit(true)], [LogInfo(InitializedMessage)]);
          assert l.events + [GlfwInit(true), LogInfo(InitializedMessage)]
            == l.events + [GlfwInit(true)] + [LogInfo(InitializedMessage)];
        }
      } else if l.count == 1 {
        assert next.events[..|next.events| - 1] == l.events + [LogInfo(TerminatingMessage)];
      }
      UpWhileContextsExist(next, ops[1..]);
    }
  }

  /** From the start, a context's whole life initialises the library once and terminates it once. */
  lemma OneContextLifetime()
    ensures Apply(Initial(), [New(true), Delete]).events
      == [GlfwInit(true), LogInfo(InitializedMessage), LogInfo(TerminatingMessage), GlfwTerminate]
    ensures Apply(Initial(), [New(true), Delete]).count == 0
  {
    var l1 := Construct(Initial(), true).0;
    assert Apply(Initial(), [New(true), Delete]) == Apply(l1, [Delete]);
    assert Apply(l1, [Delete]) == Apply(Destruct(l1), []);
  }

  /** A construction's lambda as a worker task; it throws exactly when `Construct` fails. */
  function ConstructTask(l: Library, initSucceeds: bool, id: nat): (t: Task)
    ensures t.id == id
    ensures t.failure.Some? <==> Construct(l, initSucceeds).1.Fail?
    ensures t.failure.Some? ==> t.failure.value == InitFailedError
  {
    Task(id, if Construct(l, initSucceeds).1.Fail? then Some(InitFailedError) else None)
  }

  /**
   * A failed first `glfwInit` never lets the constructor return. On the main
   * thread `execute` runs the body inline, logs the message and the wait
   * never ends; from any other thread the body is posted, and the main
   * thread's `park` stops with the fatal error.
   */
  lemma FailedInitNeverReturns(w: WorkerState, caller: ThreadId, l: Library, id: nat)
    requires l.count == 0
    ensures !WaitReleases(w, caller, ConstructTask(l, false, id))
    ensures w.threadId == Some(caller) ==>
      Submitted(w, caller, ConstructTask(l, false, id)).errors == w.errors + [InitFailedError]
    ensures w.threadId != Some(caller) ==>
      Drained(Submitted(w, caller, ConstructTask(l, false, id))).1 == Fail(FatalError)
  {
    ThrowingTaskNeverReleases(w, caller, ConstructTask(l, false, id));
  }

  /** A successful construction's task returns, so a constructor on the main thread is released. */
  lemma SucceededInitReturnsOnMainThread(w: WorkerState, caller: ThreadId, l: Library, id: nat)
    requires w.threadId == Some(caller)
    ensures WaitReleases(w, caller, ConstructTask(l, true, id))
  {
  }

  /** The first context's failed `glfwInit` leaves the count at 1 and the library down. */
  lemma FailedFirstInit()
    ensures Construct(Initial(), false) == (Library(1, [GlfwInit(false)]), Fail(InitFailedError))
    ensures !Up(Construct(Initial(), false).0.events)
  {
    assert [] + [GlfwInit(false)] == [GlfwInit(false)];
  }

  // ---------------------------------------------------------------------------
  // The shared counter as a mutable object
  // ---------------------------------------------------------------------------

  /** The static `glfw_context::context_count` and the trace of library calls. */
  class GlfwContexts {
    var contextCount: int
    var events: seq<GlfwEvent>

    function State(): Library
      reads this
    {
      Library(contextCount, events)
    }

    /** `std::atomic<int> glfw_context::context_count = 0`. */
    constructor ()
      ensures State() == Initial()
    {
      contextCount := 0;
      events := [];
    }

    /** `glfw_context::glfw_context()`. */
    method NewContext(initSucceeds: bool) returns (r: Outcome<string>)
      modifies this
      ensures (State(), r) == Construct(old(State()), initSucceeds)
    {
      var previous := contextCount;
      contextCount := contextCount + 1;
      if previous == 0 {
        events := events + [GlfwInit(initSucceeds)];
        if !initSucceeds {
          return Fail(InitFailedError);
        }
        events := events + [LogInfo(InitializedMessage)];
        assert events == old(events) + [GlfwInit(true), LogInfo(InitializedMessage)];
      }
      r := Pass;
    }

    /** `glfw_context::~glfw_context()`. */
    method DeleteContext()
      modifies this
      ensures State() == Destruct(old(State()))
    {
      var previous := contextCount;
      contextCount := contextCount - 1;
      if previous == 1 {
        events := events + [LogInfo(TerminatingMessage)];
        events := events + [GlfwTerminate];
        assert events == old(events) + [LogInfo(TerminatingMessage), GlfwTerminate];
      }
    }
  }
}

=== FILE: glfw_kotlin.dfy ===
/**
 * The Kotlin GLFW layer: the `GLFWGlobal` object, which counts the live GLFW
 * contexts and creates or terminates the native library when that count
 * crosses one, and the `GLFWContext` base class, which owns a dedicated worker
 * and raises and lowers that count over its lifetime.
 *
 * The calls the setter posts to the main thread (`glfwInit`, `glfwTerminate`),
 * the polling thread it starts and its debug log lines become events in a
 * trace; what they do on the main thread is not part of this model.
 */
module GlfwKotlin {
  import opened Common
  import opened KotlinWorker

  /** Pause between two polls of the polling thread, in milliseconds. */
  const PollingInterval: nat := 2

  const CreatingMessage: string := "Creating global GLFW library context"
  const TerminatingMessage: string := "Terminating global GLFW library context"
  const SingleWindowError: string := "GLFW contexts may only have a single window"

  /** Identity of a `GLFWWindow` linked for polling. */
  type WindowId = nat

  datatype GlobalEvent =
    | Debug(message: string)            // `log.debug(...)`
    | PostInit                          // `MAIN_THREAD.perform(glfwInit, wait = false)`
    | PostTerminate                     // `MAIN_THREAD.perform(glfwTerminate, wait = false)`
    | StartPolling(intervalMillis: nat) // the "Poll Invoke" daemon thread is started

  /**
   * What the `count` setter does besides storing `value`, given the value it
   * replaces: dropping to 0 from above terminates the library, and reaching 1
   * from 0 or below creates it and starts the polling thread.
   */
  function CountEvents(previous: int, value: int): seq<GlobalEvent>
  {
    if value == 0 then
      (if previous <= 0 then [] else [Debug(TerminatingMessage), PostTerminate])
    else if value == 1 then
      (if previous > 0 then [] else [Debug(CreatingMessage), PostInit, StartPolling(PollingInterval)])
    else []
  }

  /** The library is up when the last `glfwInit`/`glfwTerminate` posted is `glfwInit`. */
  function Up(events: seq<GlobalEvent>): bool
  {
    if events == [] then false
    else if events[|events| - 1].PostInit? then true
    else if events[|events| - 1].PostTerminate? then false
    else Up(events[..|events| - 1])
  }

  lemma UpOfAppend(events: seq<GlobalEvent>, more: seq<GlobalEvent>)
    requires forall k :: 0 <= k < |more| ==> !more[k].PostInit? && !more[k].PostTerminate?
    ensures Up(events + more) == Up(events)
    decreases |more|
  {
    if more != [] {
      var shorter := events + more[..|more| - 1];
      assert (events + more)[..|events + more| - 1] == shorter;
      assert (events + more)[|events + more| - 1] == more[|more| - 1];
      assert !more[|more| - 1].PostInit? && !more[|more| - 1].PostTerminate?;
      assert Up(events + more) == Up(shorter);
      UpOfAppend(events, more[..|more| - 1]);
    } else {
      assert events + more == events;
    }
  }

  /** The setter's effect when `count` only moves by one and never below zero. */
  predicate UnitStep(previous: int, value: int)
  {
    value == previous + 1 || (value == previous - 1 && previous > 0)
  }

  /**
   * As long as contexts raise and lower `count` one at a time (`count++`,
   * `count--`), the library is up exactly while `count` is positive.
   */
  lemma UnitStepKeepsUp(events: seq<GlobalEvent>, previous: int, value: int)
    requires previous >= 0 && (Up(events) <==> previous > 0)
    requires UnitStep(previous, value)
    ensures value >= 0
    ensures Up(events + CountEvents(previous, value)) <==> value > 0
  {
    if value == 1 && previous == 0 {
      UpOfAppend(events + [Debug(CreatingMessage), PostInit], [StartPolling(PollingInterval)]);
      assert events + [Debug(CreatingMessage), PostInit] + [StartPolling(PollingInterval)]
        == events + CountEvents(previous, value);
      assert (events + [Debug(CreatingMessage), PostInit])[|events| + 1] == PostInit;
    } else if value == 0 && previous == 1 {
      assert (events + CountEvents(previous, value))[|events| + 1] == PostTerminate;
    } else {
      assert CountEvents(previous, value) == [];
      assert events + [] == events;
    }
  }

  /** The values `count` takes, one setter call after another. */
  function Replay(previous: int, values: seq<int>): seq<GlobalEvent>
    decreases |values|
  {
    if values == [] then [] else CountEvents(previous, values[0]) + Replay(values[0], values[1..])
  }

  /** `count` rising from `from` by one, `n` times. */
  function Ups(from: int, n: nat): (r: seq<int>)
    ensures |r| == n
    decreases n
  {
    if n == 0 then [] else [from + 1] + Ups(from + 1, n - 1)
  }

  /** `count` falling from `from` by one, `n` times. */
  function Downs(from: int, n: nat): (r: seq<int>)
    ensures |r| == n
    decreases n
  {
    if n == 0 then [] else [from - 1] + Downs(from - 1, n - 1)
  }

  lemma {:induction false} ReplayAppend(previous: int, a: seq<int>, b: seq<int>)
    requires a != []
    ensures Replay(previous, a + b) == Replay(previous, a) + Replay(a[|a| - 1], b)
    decreases |a|
  {
    assert (a + b)[0] == a[0] && (a + b)[1..] == a[1..] + b;
    if |a| == 1 {
      assert a[1..] + b == b;
      assert Replay(previous, a) == CountEvents(previous, a[0]) + [];
    } else {
      ReplayAppend(a[0], a[1..], b);
    }
  }

  /** Above one, further contexts coming and going leave the library alone. */
  lemma {:induction false} QuietAboveOne(from: int, n: nat)
    requires from >= 1
    ensures Replay(from, Ups(from, n)) == []
    ensures from - n >= 1 ==> Replay(from, Downs(from, n)) == []
    decreases n
  {
    if n > 0 {
      QuietAboveOne(from + 1, n - 1);
      if from - n >= 1 {
        QuietAboveOne(from - 1, n - 1);
      }
    }
  }

  lemma LastOfUps(from: int, n: nat)
    requires n > 0
    ensures Ups(from, n)[n - 1] == from + n
    decreases n
  {
    if n > 1 {
      LastOfUps(from + 1, n - 1);
    }
  }

  lemma LastOfDowns(from: int, n: nat)
    requires n > 0
    ensures Downs(from, n)[n - 1] == from - n
    decreases n
  {
    if n > 1 {
      LastOfDowns(from - 1, n - 1);
    }
  }

  /** The first of `n` contexts created from none creates the library; the others are quiet. */
  lemma Rising(n: nat)
    requires n >= 1
    ensures Replay(0, Ups(0, n)) == [Debug(CreatingMessage), PostInit, StartPolling(PollingInterval)]
  {
    var creating := [Debug(CreatingMessage), PostInit, StartPolling(PollingInterval)];
    assert Ups(0, n) == [1] + Ups(1, n - 1);
    QuietAboveOne(1, n - 1);
    assert Replay(0, [1]) == creating + [];
    if n > 1 {
      ReplayAppend(0, [1], Ups(1, n - 1));
    }
  }

  /** Of `n` contexts destroyed down to none, only the last terminates the library. */
  lemma Falling(n: nat)
    requires n >= 1
    ensures Replay(n, Downs(n, n)) == [Debug(TerminatingMessage), PostTerminate]
  {
    var terminating := [Debug(TerminatingMessage), PostTerminate];
    assert Replay(1, [0]) == terminating + [];
    if n == 1 {
      assert Downs(n, n) == [0];
    } else {
      var tail := Downs(n, n - 1);
      LastOfDowns(n, n - 1);
      DownsSnoc(n, n - 1);
      QuietAboveOne(n, n - 1);
      ReplayAppend(n, tail, [0]);
    }
  }

  /**
   * From no contexts, `n` contexts created and then all destroyed create the
   * library once, at the first, and terminate it once, at the last.
   */
  lemma NestedContextsInitOnce(n: nat)
    requires n >= 1
    ensures Replay(0, Ups(0, n) + Downs(n, n))
      == [Debug(CreatingMessage), PostInit, StartPolling(PollingInterval), Debug(TerminatingMessage), PostTerminate]
  {
    LastOfUps(0, n);
    ReplayAppend(0, Ups(0, n), Downs(n, n));
    Rising(n);
    Falling(n);
  }

  lemma {:induction false} DownsSnoc(from: int, n: nat)
    ensures Downs(from, n + 1) == Downs(from, n) + [from - n - 1]
    decreases n
  {
    if n > 0 {
      DownsSnoc(from - 1, n - 1);
    }
  }

  // ---------------------------------------------------------------------------
  // GLFWGlobal
  // ---------------------------------------------------------------------------

  /** The `GLFWGlobal` object: the linked windows, `count` and the trace of what its setter did. */
  class GlfwGlobal {
    var windows: seq<WindowId>
    var count: int
    var events: seq<GlobalEvent>

    /** The library is up exactly while contexts are counted. */
    predicate Valid()
      reads this
    {
      count >= 0 && (Up(events) <==> count > 0)
    }

    constructor ()
      ensures Valid() && windows == [] && count == 0 && events == []
    {
      windows := [];
      count := 0;
      events := [];
    }

    /** `link`: the window joins the polled windows. */
    method Link(window: WindowId)
      modifies this`windows
      ensures windows == old(windows) + [window]
    {
      windows := windows + [window];
    }

    /** The `count` setter: the value is stored first, then the library is created or terminated. */
    method SetCount(value: int)
      modifies this`count, this`events
      ensures count == value
      ensures events == old(events) + CountEvents(old(count), value)
      ensures old(Valid()) && UnitStep(old(count), value) ==> Valid()
    {
      if Valid() && UnitStep(count, value) {
        UnitStepKeepsUp(events, count, value);
      }
      var f := count;
      count := value;
      if value == 0 {
        if f <= 0 {
          return;
        }
        events := events + [Debug(TerminatingMessage)];
        events := events + [PostTerminate];
      } else if value == 1 {
        if f > 0 {
          return;
        }
        events := events + [Debug(CreatingMessage)];
        events := events + [PostInit];
        events := events + [StartPolling(PollingInterval)];
      }
    }
  }

  // ---------------------------------------------------------------------------
  // GLFWContext
  // ---------------------------------------------------------------------------

  /**
   * The `GLFWContext` base class. `contextActiveLocked` is the state of the
   * `contextActive` mutex, which starts locked and is unlocked once the
   * context is ready.
   */
  class GlfwContext {
    const worker: WorkerThreadImpl
    const global: GlfwGlobal
    var windowCount: int
    var shouldClose: bool
    var contextActiveLocked: bool

    ghost predicate Valid()
      reads this, worker, worker.buffer
    {
      worker.Valid() && worker.buffer.Length == DefaultBufferSize
    }

    /**
     * Field initialisers and `init`: a started worker with 512 slots, no
     * windows, a locked `contextActive`, and one more context counted.
     */
    constructor (global: GlfwGlobal)
      modifies global`count, global`events
      ensures Valid() && fresh(worker) && fresh(worker.buffer)
      ensures worker.alive && worker.Contents == [] && worker.ran == []
      ensures this.global == global
      ensures windowCount == 0 && !shouldClose && contextActiveLocked
      ensures global.count == old(global.count) + 1
      ensures global.events == old(global.events) + CountEvents(old(global.count), old(global.count) + 1)
      ensures old(global.Valid()) ==> global.Valid()
    {
      var w := new WorkerThreadImpl(DefaultBufferSize);
      var _ := w.UseThisThread();
      worker := w;
      this.global := global;
      windowCount := 0;
      shouldClose := false;
      contextActiveLocked := true;
      new;
      global.SetCount(global.count + 1);
    }

    /** The `windowCount` setter: the value is stored, more than one window throws, none requests closing. */
    method SetWindowCount(value: int) returns (r: Outcome<string>)
      modifies this`windowCount, this`shouldClose
      ensures windowCount == value
      ensures value > 1 ==> r == Fail(SingleWindowError) && shouldClose == old(shouldClose)
      ensures value <= 1 ==> r == Pass && shouldClose == (old(shouldClose) || value == 0)
    {
      windowCount := value;
      if value > 1 {
        return Fail(SingleWindowError);
      }
      if value == 0 {
        shouldClose := true;
      }
      r := Pass;
    }

    /** The subclass's `contextActive.unlock()` once its context is current; unlocking an unlocked mutex throws. */
    method ActivateContext()
      requires contextActiveLocked
      modifies this`contextActiveLocked
      ensures !contextActiveLocked
    {
      contextActiveLocked := false;
    }

    /**
     * `perform`: `withLock` holds `contextActive` around handing the given task to
     * the worker and releases it after. The model requires the mutex to be
     * unlocked, where the source suspends until it is.
     */
    method Perform(task: Task, wait: bool)
      requires Valid() && !contextActiveLocked && worker.availableSlots > 0
      modifies worker, worker.buffer
      ensures Valid() && worker.Contents == old(worker.Contents) + [task]
      ensures worker.alive == old(worker.alive) && worker.ran == old(worker.ran)
      ensures !contextActiveLocked
    {
      worker.Perform(task, wait);
    }

    /** `destroy`: the worker stops, then one context fewer is counted. */
    method Destroy()
      modifies worker`alive, global`count, global`events
      ensures !worker.alive
      ensures global.count == old(global.count) - 1
      ensures global.events == old(global.events) + CountEvents(old(global.count), old(global.count) - 1)
      ensures old(global.Valid()) && old(global.count) > 0 ==> global.Valid()
    {
      worker.Destroy();
      global.SetCount(global.count - 1);
    }
  }
}

=== FILE: kotlin_worker.dfy ===
/**
 * The Kotlin worker thread and worker pool. A worker keeps its tasks in a
 * fixed-size ring buffer with an input and an output index; two counting
 * semaphores count the free slots and the queued tasks. A producer takes a
 * slot, writes at `indexIn` and gives a task; the consumer loop takes a task,
 * reads and clears the slot at `indexOut`, runs it and gives a slot.
 * The pool hands tasks to its workers round-robin.
 *
 * A semaphore becomes an integer counter; acquiring a permit that is not there
 * would block, so a positive count is a precondition.
 */
module KotlinWorker {
  import opened Common

  const AlreadyStartedError: string := "Attempted to start a worker thread which was already started"

  /** `Worker.create`'s default number of buffer slots. */
  const DefaultBufferSize: nat := 512

  /** The buffer slot that position `x` of the ring lands on, for `x < 2n`. */
  function Slot(x: nat, n: nat): (j: nat)
    requires 0 < n && x < 2 * n
    ensures j < n && (x < n ==> j == x) && (x >= n ==> j == x - n)
  {
    if x < n then x else x - n
  }

  /** `Slot` is the remainder modulo the buffer size, as `%=` computes it. */
  lemma SlotIsMod(x: nat, n: nat)
    requires 0 < n && x < 2 * n
    ensures Slot(x, n) == x % n
  {
    if x < n {
      ModUnique(x, n, 0, x);
    } else {
      ModUnique(x, n, 1, x - n);
    }
  }

  /** The buffer read round the ring, starting at slot `out`. */
  function Rotate(buf: seq<Option<Task>>, out: nat): (r: seq<Option<Task>>)
    requires out <= |buf|
    ensures |r| == |buf|
  {
    buf[out..] + buf[..out]
  }

  /** Position `k` of the rotated buffer is slot `Slot(out + k)`. */
  lemma RotateAt(buf: seq<Option<Task>>, out: nat, k: nat)
    requires out < |buf| && k < |buf|
    ensures Rotate(buf, out)[k] == buf[Slot(out + k, |buf|)]
  {
    if k < |buf| - out {
      assert Rotate(buf, out)[k] == buf[out..][k];
    } else {
      assert Rotate(buf, out)[k] == buf[..out][k - (|buf| - out)];
    }
  }

  /** The queued tasks as occupied slots. */
  function Queued(c: seq<Task>): (r: seq<Option<Task>>)
    ensures |r| == |c|
  {
    seq(|c|, k requires 0 <= k < |c| => Some(c[k]))
  }

  /** `m` empty (null) slots. */
  function Empties(m: nat): (r: seq<Option<Task>>)
    ensures |r| == m
  {
    seq(m, _ => None)
  }

  /**
   * The ring invariant: read from `out` round the end of the buffer, the
   * slots hold the queued tasks `c`, oldest first, and then only empty slots.
   */
  ghost predicate Ring(buf: seq<Option<Task>>, out: nat, c: seq<Task>)
  {
    var n := |buf|;
    && n > 0 && out < n && |c| <= n
    && Rotate(buf, out) == Queued(c) + Empties(n - |c|)
  }

  /** Writing a task into the first free slot appends it to the queue. */
  lemma RingAdd(buf: seq<Option<Task>>, out: nat, c: seq<Task>, t: Task)
    requires Ring(buf, out, c) && |c| < |buf|
    ensures Ring(buf[Slot(out + |c|, |buf|) := Some(t)], out, c + [t])
  {
    var n := |buf|;
    var b := buf[Slot(out + |c|, n) := Some(t)];
    var want := Queued(c + [t]) + Empties(n - |c| - 1);
    forall k | 0 <= k < n
      ensures Rotate(b, out)[k] == want[k]
    {
      RotateAt(b, out, k);
      RotateAt(buf, out, k);
      if k < |c| {
        assert (Queued(c) + Empties(n - |c|))[k] == Some(c[k]);
      } else if k > |c| {
        assert (Queued(c) + Empties(n - |c|))[k] == None;
      }
    }
    assert Rotate(b, out) == want;
  }

  /** The slot at `out` holds the oldest task; clearing it and advancing `out` drops that task. */
  lemma RingTake(buf: seq<Option<Task>>, out: nat, c: seq<Task>)
    requires Ring(buf, out, c) && |c| > 0
    ensures buf[out] == Some(c[0])
    ensures Ring(buf[out := None], Slot(out + 1, |buf|), c[1..])
  {
    var n := |buf|;
    var out' := Slot(out + 1, n);
    var b := buf[out := None];
    var old_ := Queued(c) + Empties(n - |c|);
    var want := Queued(c[1..]) + Empties(n - |c| + 1);
    RotateAt(buf, out, 0);
    assert old_[0] == Some(c[0]);
    forall k | 0 <= k < n
      ensures Rotate(b, out')[k] == want[k]
    {
      RotateAt(b, out', k);
      if k + 1 < n {
        RotateAt(buf, out, k + 1);
        assert Slot(out' + k, n) == Slot(out + (k + 1), n);
        if k + 1 < |c| {
          assert old_[k + 1] == Some(c[k + 1]);
        } else {
          assert old_[k + 1] == None;
        }
      }
    }
    assert Rotate(b, out') == want;
  }

  /** The worker's invariant over its buffer contents, indices and semaphore counts. */
  ghost predicate WorkerInv(buf: seq<Option<Task>>, indexIn: nat, indexOut: nat, tasks: int, slots: int, c: seq<Task>)
  {
    && Ring(buf, indexOut, c)
    && indexIn == Slot(indexOut + |c|, |buf|)
    && tasks == |c|
    && slots == |buf| - tasks
  }

  /** `perform` keeps the invariant: the new task is queued last and `indexIn` advances. */
  lemma PerformKeepsInv(buf: seq<Option<Task>>, indexIn: nat, indexOut: nat, tasks: int, slots: int, c: seq<Task>, t: Task)
    requires WorkerInv(buf, indexIn, indexOut, tasks, slots, c) && slots > 0
    ensures indexIn + 1 < 2 * |buf|
    ensures WorkerInv(buf[indexIn := Some(t)], Slot(indexIn + 1, |buf|), indexOut, tasks + 1, slots - 1, c + [t])
  {
    RingAdd(buf, indexOut, c, t);
  }

  /** A consumer step keeps the invariant: the oldest task leaves and `indexOut` advances. */
  lemma ConsumeKeepsInv(buf: seq<Option<Task>>, indexIn: nat, indexOut: nat, tasks: int, slots: int, c: seq<Task>)
    requires WorkerInv(buf, indexIn, indexOut, tasks, slots, c) && tasks > 0
    ensures indexOut < |buf| && buf[indexOut] == Some(c[0])
    ensures WorkerInv(buf[indexOut := None], indexIn, Slot(indexOut + 1, |buf|), tasks - 1, slots + 1, c[1..])
  {
    RingTake(buf, indexOut, c);
  }

  lemma MessagesOfFirst(ts: seq<Task>)
    requires |ts| > 0
    ensures FailureMessages(ts) == FailureMessages([ts[0]]) + FailureMessages(ts[1..])
  {
    assert ts == [ts[0]] + ts[1..];
    FailureMessagesAppend([ts[0]], ts[1..]);
  }

  class WorkerThreadImpl {
    /** Buffer of tasks; `None` is an empty (null) slot. */
    const buffer: array<Option<Task>>
    var indexIn: nat
    var indexOut: nat
    /** Permits of the `availableTasks` semaphore. */
    var availableTasks: int
    /** Permits of the `availableSlots` semaphore. */
    var availableSlots: int
    var alive: bool
    /** Tasks this worker ran, in the order they ran. */
    var ran: seq<Task>
    /** Messages of the exceptions tasks threw that this worker logged. */
    var errors: seq<string>
    /** The queued tasks, oldest first. */
    ghost var Contents: seq<Task>

    ghost predicate Valid()
      reads this, buffer
    {
      WorkerInv(buffer[..], indexIn, indexOut, availableTasks, availableSlots, Contents)
    }

    /** All slots free, no task available, not yet started. */
    constructor (bufferSize: nat := DefaultBufferSize)
      requires bufferSize > 0
      ensures Valid() && fresh(buffer) && buffer.Length == bufferSize
      ensures Contents == [] && indexIn == 0 && indexOut == 0
      ensures availableSlots == bufferSize && availableTasks == 0
      ensures !alive && ran == [] && errors == []
    {
      buffer := new Option<Task>[bufferSize](_ => None);
      indexIn, indexOut := 0, 0;
      availableTasks, availableSlots := 0, bufferSize;
      alive := false;
      ran, errors := [], [];
      Contents := [];
    }

    /**
     * `perform`: take a free slot, write the new task at `indexIn`, advance
     * `indexIn` by one modulo the buffer size, and give one available task.
     */
    method Perform(task: Task, wait: bool)
      requires Valid() && availableSlots > 0
      modifies this, buffer
      ensures Valid() && Contents == old(Contents) + [task]
      ensures buffer[..] == old(buffer[..])[old(indexIn) := Some(task)]
      ensures indexIn == (old(indexIn) + 1) % buffer.Length && indexOut == old(indexOut)
      ensures availableSlots == old(availableSlots) - 1 && availableTasks == old(availableTasks) + 1
      ensures alive == old(alive) && ran == old(ran) && errors == old(errors)
    {
      var n := buffer.Length;
      ghost var b0 := buffer[..];
      PerformKeepsInv(b0, indexIn, indexOut, availableTasks, availableSlots, Contents, task);
      availableSlots := availableSlots - 1;
      buffer[indexIn] := Some(task);
      assert buffer[..] == b0[indexIn := Some(task)];
      // `indexIn++`, then `indexIn %= buffer.size`
      SlotIsMod(indexIn + 1, n);
      indexIn := Slot(indexIn + 1, n);
      Contents := Contents + [task];
      availableTasks := availableTasks + 1;
    }

    /**
     * One iteration of the `useThisThread` loop: take an available task, read
     * the slot at `indexOut` and clear it, advance `indexOut`, run it
     * (an exception is logged and swallowed) and give one free slot.
     */
    method Consume()
      requires Valid() && availableTasks > 0
      modifies this, buffer
      ensures Valid() && Contents == old(Contents)[1..]
      ensures ran == old(ran) + [old(Contents)[0]]
      ensures errors == old(errors) + FailureMessages([old(Contents)[0]])
      ensures buffer[..] == old(buffer[..])[old(indexOut) := None]
      ensures indexOut == (old(indexOut) + 1) % buffer.Length && indexIn == old(indexIn)
      ensures availableSlots == old(availableSlots) + 1 && availableTasks == old(availableTasks) - 1
      ensures alive == old(alive)
    {
      var n := buffer.Length;
      ghost var b0 := buffer[..];
      ConsumeKeepsInv(b0, indexIn, indexOut, availableTasks, availableSlots, Contents);
      availableTasks := availableTasks - 1;
      var task := buffer[indexOut];
      buffer[indexOut] := None;
      assert buffer[..] == b0[indexOut := None];
      // `indexOut++`, then `indexOut %= buffer.size`
      SlotIsMod(indexOut + 1, n);
      indexOut := Slot(indexOut + 1, n);
      Contents := Contents[1..];
      // The slot read is never empty, so `task!!` does not throw.
      ran := ran + [task.value];
      if task.value.failure.Some? {
        errors := errors + [task.value.failure.value];
      }
      availableSlots := availableSlots + 1;
    }

    /**
     * `useThisThread`: refused with `IllegalStateException` on a worker that is
     * alive; otherwise the worker becomes alive and the calling thread consumes
     * tasks in buffer order. The model runs the loop until no task is
     * available, where the real loop blocks waiting for the next one.
     */
    method UseThisThread() returns (r: Outcome<string>)
      requires Valid()
      modifies this, buffer
      ensures Valid()
      ensures old(alive) ==>
        r == Fail(AlreadyStartedError) && alive &&
        Contents == old(Contents) && ran == old(ran) && errors == old(errors)
      ensures !old(alive) ==>
        r == Pass && alive && Contents == [] &&
        ran == old(ran) + old(Contents) &&
        errors == old(errors) + FailureMessages(old(Contents))
    {
      if alive {
        return Fail(AlreadyStartedError);
      }
      alive := true;
      Drain();
      r := Pass;
    }

    /**
     * The consumer loop of a live worker: it consumes tasks, in buffer
     * order, while the worker is alive and a task is available.
     */
    method Drain()
      requires Valid() && alive
      modifies this, buffer
      ensures Valid() && alive && Contents == []
      ensures ran == old(ran) + old(Contents)
      ensures errors == old(errors) + FailureMessages(old(Contents))
    {
      while alive && availableTasks > 0
        invariant Valid() && alive
        invariant ran + Contents == old(ran) + old(Contents)
        invariant errors + FailureMessages(Contents) == old(errors) + FailureMessages(old(Contents))
        decreases |Contents|
      {
        ghost var c, ran0, errors0 := Contents, ran, errors;
        Consume();
        MessagesOfFirst(c);
        assert ran + Contents == ran0 + c by {
          assert c == [c[0]] + c[1..];
        }
      }
    }

    /** `destroy`: nothing on a worker that is not alive; otherwise it stops being alive. */
    method Destroy()
      modifies this`alive
      ensures !alive && (old(Valid()) ==> Valid())
    {
      if !alive {
        return;
      }
      alive := false;
    }
  }

  // ---------------------------------------------------------------------------
  // The pool's dispatch counter
  // ---------------------------------------------------------------------------

  /** `Int.MIN_VALUE` and `Int.MAX_VALUE`. */
  const IntMin: int := -0x8000_0000
  const IntMax: int := 0x7fff_ffff

  /** A Kotlin `Int`. */
  type Int32 = x: int | -0x8000_0000 <= x <= 0x7fff_ffff

  /** The message of the `ArithmeticException` an `Int` remainder by zero throws. */
  const DivisionByZeroError: string := "/ by zero"

  /** `n` as a Kotlin `Int`: the one value in range that agrees with `n` modulo 2^32. */
  function Wrap32(n: int): (x: Int32)
    ensures (x - n) % 0x1_0000_0000 == 0
  {
    var a := n + 0x8000_0000;
    assert a == (a / 0x1_0000_0000) * 0x1_0000_0000 + a % 0x1_0000_0000;
    ModUnique((a % 0x1_0000_0000) - a, 0x1_0000_0000, -(a / 0x1_0000_0000), 0);
    a % 0x1_0000_0000 - 0x8000_0000
  }

  /** The value `AtomicInteger.getAndIncrement` stores: one more, wrapping from `Int.MAX_VALUE` to `Int.MIN_VALUE`. */
  function Incremented(x: Int32): Int32
  {
    if x == IntMax then IntMin else x + 1
  }

  /** One increment of a wrapped value is the wrap of the successor. */
  lemma Wrap32Step(n: int)
    ensures Incremented(Wrap32(n)) == Wrap32(n + 1)
  {
    var m := 0x1_0000_0000;
    var a := n + 0x8000_0000;
    var q, r := a / m, a % m;
    assert a == q * m + r;
    if r < m - 1 {
      ModUnique(a + 1, m, q, r + 1);
    } else {
      assert a + 1 == (q + 1) * m + 0;
      ModUnique(a + 1, m, q + 1, 0);
    }
  }

  /** The counter after `n` calls of `getAndIncrement` on `AtomicInteger(0)`. */
  function Counter(n: nat): Int32
  {
    if n == 0 then 0 else Incremented(Counter(n - 1))
  }

  /** The counter after `n` dispatches is `n` wrapped to 32 bits. */
  lemma {:induction false} CounterIsWrap32(n: nat)
    ensures Counter(n) == Wrap32(n)
  {
    if n == 0 {
      ModUnique(0x8000_0000, 0x1_0000_0000, 0, 0x8000_0000);
    } else {
      CounterIsWrap32(n - 1);
      Wrap32Step(n - 1);
    }
  }

  /** For the first 2^31 dispatches the counter is the number of earlier dispatches. */
  lemma CounterBeforeWrap(n: nat)
    requires n <= IntMax
    ensures Counter(n) == n
  {
    CounterIsWrap32(n);
    ModUnique(n + 0x8000_0000, 0x1_0000_0000, 0, n + 0x8000_0000);
  }

  /**
   * Kotlin's `%` on `Int`: the remainder of the division truncated toward
   * zero, which takes the sign of the dividend.
   */
  function KotlinRem(a: int, n: int): (r: int)
    requires n > 0
    ensures -n < r < n
    ensures a >= 0 ==> r >= 0
    ensures a <= 0 ==> r <= 0
    ensures (a - r) % n == 0
  {
    if a >= 0 then
      assert a == (a / n) * n + a % n;
      ModUnique(a - a % n, n, a / n, 0);
      a % n
    else
      var b := -a;
      assert b == (b / n) * n + b % n;
      ModUnique(a + b % n, n, -(b / n), 0);
      -(b % n)
  }

  /**
   * The worker `perform` reads, as written: the counter's Kotlin remainder
   * modulo the pool size, or `None` where that remainder is negative and
   * `workers[...]` throws `IndexOutOfBoundsException`.
   */
  function DispatchIndexAsWritten(counter: Int32, size: nat): (k: Option<nat>)
    requires size > 0
    ensures k.Some? ==> k.value < size && (counter - k.value) % size == 0
  {
    var r := KotlinRem(counter, size);
    if r < 0 then None else Some(r)
  }

  /** The intended worker: the counter's remainder taken non-negative, as `Math.floorMod` gives it. */
  function DispatchIndex(counter: Int32, size: nat): (k: nat)
    requires size > 0
    ensures k < size && (counter - k) % size == 0
  {
    assert counter == (counter / size) * size + counter % size;
    ModUnique(counter - counter % size, size, counter / size, 0);
    counter % size
  }

  /** The two agree while the counter is not negative, that is for the first 2^31 dispatches. */
  lemma DispatchIndexAgreesBeforeWrap(n: nat, size: nat)
    requires size > 0 && n <= IntMax
    ensures DispatchIndexAsWritten(Counter(n), size) == Some(DispatchIndex(Counter(n), size))
    ensures DispatchIndex(Counter(n), size) == n % size
  {
    CounterBeforeWrap(n);
  }

  /** As written, the worker read is out of bounds exactly when the counter is negative and not a multiple of the size. */
  lemma DispatchOutOfBoundsIff(counter: Int32, size: nat)
    requires size > 0
    ensures DispatchIndexAsWritten(counter, size).None? <==> counter < 0 && counter % size != 0
  {
    var r := KotlinRem(counter, size);
    if counter < 0 {
      if r == 0 {
        assert counter % size == 0;
      } else {
        ModUnique(counter, size, counter / size, counter % size);
        assert counter % size != 0 by {
          if counter % size == 0 {
            assert (counter - r) % size == 0;
            ModUnique(counter - r, size, (counter - r) / size, 0);
            ModUnique(-r, size, (counter - r) / size - counter / size, 0);
            ModUnique(-r, size, 0, -r);
          }
        }
      }
    }
  }

  /**
   * The 2^31-st dispatch finds the counter at `Int.MIN_VALUE`; with three
   * workers Kotlin's remainder is -2, and `workers[-2]` throws.
   */
  lemma DispatchAfterWrapThrows()
    ensures Counter(0x8000_0000) == IntMin
    ensures KotlinRem(Counter(0x8000_0000), 3) == -2
    ensures DispatchIndexAsWritten(Counter(0x8000_0000), 3).None?
    ensures DispatchIndex(Counter(0x8000_0000), 3) == 1
  {
    CounterIsWrap32(0x8000_0000);
    ModUnique(0x1_0000_0000, 0x1_0000_0000, 1, 0);
    ModUnique(0x8000_0000, 3, 715827882, 2);
    ModUnique(-0x8000_0000, 3, -715827883, 1);
  }

  // ---------------------------------------------------------------------------
  // The pool
  // ---------------------------------------------------------------------------

  class WorkerPoolImpl {
    var workers: seq<WorkerThreadImpl>
    /** `roundRobin`: the `AtomicInteger` that picks the next worker. */
    var roundRobin: Int32
    const bufferSize: nat
    ghost var Repr: set<object>

    ghost predicate Valid()
      reads this, Repr
    {
      && this in Repr && bufferSize > 0
      && (forall i :: 0 <= i < |workers| ==> workers[i] in Repr && workers[i].buffer in Repr)
      && (forall i, j :: 0 <= i < j < |workers| ==>
            workers[i] != workers[j] && workers[i].buffer != workers[j].buffer)
      && (forall i :: 0 <= i < |workers| ==> workers[i].Valid() && workers[i].buffer.Length == bufferSize)
    }

    /** A pool of `count` workers, each started on a thread of its own. */
    constructor (count: nat, bufferSize: nat := DefaultBufferSize)
      requires bufferSize > 0
      ensures Valid() && fresh(Repr) && |workers| == count && roundRobin == 0
      ensures forall i :: 0 <= i < count ==> workers[i].alive && workers[i].Contents == []
    {
      this.bufferSize := bufferSize;
      roundRobin := 0;
      workers := [];
      Repr := {this};
      new;
      // Each worker is created and started on a thread of its own: the state
      // this leaves is the one `useThisThread` leaves.
      while |workers| < count
        invariant Valid() && fresh(Repr) && |workers| <= count && roundRobin == 0
        invariant forall i :: 0 <= i < |workers| ==> workers[i].alive && workers[i].Contents == []
        decreases count - |workers|
      {
        UseThisThread();
      }
    }

    /**
     * `perform`: advance the counter and hand the new task to the worker it
     * picked before; that worker is `DispatchIndex`, the intended index, where
     * the code as written can pick a negative one. With no workers the
     * remainder divides by zero and throws.
     */
    method Perform(task: Task, wait: bool) returns (r: Outcome<string>)
      requires Valid()
      requires |workers| > 0 ==> workers[DispatchIndex(roundRobin, |workers|)].availableSlots > 0
      modifies this
      modifies if |workers| > 0 then {workers[DispatchIndex(roundRobin, |workers|)]} else {}
      modifies if |workers| > 0 then {workers[DispatchIndex(roundRobin, |workers|)].buffer} else {}
      ensures Valid() && workers == old(workers) && Repr == old(Repr)
      ensures roundRobin == Incremented(old(roundRobin))
      ensures |workers| == 0 ==> r == Fail(DivisionByZeroError)
      ensures |workers| > 0 ==> r == Pass
      ensures |workers| > 0 ==>
        var k := DispatchIndex(old(roundRobin), |workers|);
        workers[k].Contents == old(workers[k].Contents) + [task]
      ensures forall j :: 0 <= j < |workers| && j != DispatchIndex(old(roundRobin), |workers|) ==>
        unchanged(workers[j]) && unchanged(workers[j].buffer)
    {
      var counter := roundRobin;
      roundRobin := Incremented(roundRobin);
      if |workers| == 0 {
        return Fail(DivisionByZeroError);
      }
      var worker := workers[DispatchIndex(counter, |workers|)];
      worker.Perform(task, wait);
      r := Pass;
    }

    /** `useThisThread`: append one new worker at the end and start it on the calling thread. */
    method UseThisThread()
      requires Valid()
      modifies this
      ensures Valid() && fresh(Repr - old(Repr))
      ensures |workers| == |old(workers)| + 1 && workers[..|old(workers)|] == old(workers)
      ensures fresh(workers[|workers| - 1]) && workers[|workers| - 1].alive
      ensures workers[|workers| - 1].Contents == []
      ensures roundRobin == old(roundRobin)
    {
      var w := new WorkerThreadImpl(bufferSize);
      workers := workers + [w];
      Repr := Repr + {w, w.buffer};
      var _ := w.UseThisThread();
    }

    /** `destroy`: destroy every worker, each once. */
    method Destroy()
      requires Valid()
      modifies workers`alive
      ensures Valid()
      ensures forall i :: 0 <= i < |workers| ==> !workers[i].alive
      ensures forall i :: 0 <= i < |workers| ==> workers[i].Contents == old(workers[i].Contents)
    {
      var i := 0;
      while i < |workers|
        invariant 0 <= i <= |workers| && Valid()
        invariant forall j :: 0 <= j < i ==> !workers[j].alive
      {
        workers[i].Destroy();
        i := i + 1;
      }
    }
  }
}

=== FILE: latch.dfy ===
/**
 * The latch: a counter that threads count down and up, and that `wait`
 * blocks on until it is at most zero. The mutex and condition variable only
 * serialise the updates and wake the waiters, so the model keeps the counter
 * and turns "wait returns" into a result.
 */
module Latch {

  datatype LatchOp = CountDown | CountUp

  /** The counter after one operation: `count_down` only lowers a positive count. */
  function Step(count: int, op: LatchOp): (c: int)
    ensures op.CountUp? ==> c == count + 1
    ensures op.CountDown? ==> count - 1 <= c <= count && (c < count <==> count > 0)
  {
    match op
    case CountDown => if count > 0 then count - 1 else count
    case CountUp => count + 1
  }

  /** The counter after a sequence of operations, run one after another. */
  function Apply(count: int, ops: seq<LatchOp>): int
    decreases |ops|
  {
    if ops == [] then count else Apply(Step(count, ops[0]), ops[1..])
  }

  function Downs(n: nat): (ops: seq<LatchOp>)
    ensures |ops| == n && forall k :: 0 <= k < n ==> ops[k] == CountDown
  {
    if n == 0 then [] else [CountDown] + Downs(n - 1)
  }

  function CountOf(ops: seq<LatchOp>, op: LatchOp): (k: nat)
    ensures k <= |ops|
  {
    if ops == [] then 0 else (if ops[0] == op then 1 else 0) + CountOf(ops[1..], op)
  }

  /** From a non-negative count, no mix of `count_down` and `count_up` drives the count below zero. */
  lemma {:induction false} ApplyKeepsNonNegative(count: int, ops: seq<LatchOp>)
    requires count >= 0
    ensures Apply(count, ops) >= 0
    decreases |ops|
  {
    if ops != [] {
      ApplyKeepsNonNegative(Step(count, ops[0]), ops[1..]);
    }
  }

  /** `initial` count-downs bring a latch built with `initial >= 0` to zero, so `wait` returns. */
  lemma {:induction false} DownsReachZero(initial: nat)
    ensures Apply(initial, Downs(initial)) == 0
  {
    if initial > 0 {
      assert Downs(initial)[1..] == Downs(initial - 1);
      DownsReachZero(initial - 1);
    }
  }

  /** Count-downs past zero change nothing: the count is not driven negative. */
  lemma {:induction false} DownsAtZero(n: nat)
    ensures Apply(0, Downs(n)) == 0
  {
    if n > 0 {
      assert Downs(n)[1..] == Downs(n - 1);
      DownsAtZero(n - 1);
    }
  }

  /**
   * Each operation moves the count by at most one: after `ops` the count lies
   * between `count` minus the count-downs and `count` plus the count-ups.
   */
  lemma {:induction false} ApplyBounds(count: int, ops: seq<LatchOp>)
    ensures count - CountOf(ops, CountDown) <= Apply(count, ops) <= count + CountOf(ops, CountUp)
    decreases |ops|
  {
    if ops != [] {
      ApplyBounds(Step(count, ops[0]), ops[1..]);
    }
  }

  /** A larger starting count never ends smaller. */
  lemma {:induction false} ApplyMonotone(c1: int, c2: int, ops: seq<LatchOp>)
    requires c1 <= c2
    ensures Apply(c1, ops) <= Apply(c2, ops)
    decreases |ops|
  {
    if ops != [] {
      ApplyMonotone(Step(c1, ops[0]), Step(c2, ops[0]), ops[1..]);
    }
  }

  /** A released latch is re-armed by `count_up`: afterwards `wait` blocks again. */
  lemma CountUpRearms(count: int)
    requires count == 0
    ensures Apply(count, [CountUp]) == 1 && Apply(count, [CountUp, CountDown]) == 0
  {
    assert [CountUp, CountDown][1..] == [CountDown];
  }

  class Latch {
    var count: int

    constructor (initial: int := 1)
      ensures count == initial
    {
      count := initial;
    }

    /**
     * `wait`: returns once the count is at most zero. `passed` is false
     * exactly when the caller would still be blocked.
     */
    method Wait() returns (passed: bool)
      ensures passed <==> count <= 0
    {
      passed := !(count > 0);
    }

    /** `count_down`: lowers a positive count by one, and leaves any other count alone. */
    method CountDown()
      modifies this
      ensures count == Step(old(count), LatchOp.CountDown)
    {
      if count > 0 {
        count := count - 1;
      }
    }

    /** `count_up`: raises the count by one, whatever it was. */
    method CountUp()
      modifies this
      ensures count == Step(old(count), LatchOp.CountUp)
    {
      count := count + 1;
    }
  }
}

=== FILE: logger.dfy ===
/**
 * The logger's pattern interpreter, a small subset of Log4j patterns. Text
 * outside a token is copied. `%` starts a token; inside it digits build a
 * width, `-` sets the justification flag, and `m`, `c`, `n` and `p` print
 * the message, the logger name, a newline, or the level colour and level.
 * `{...}` is a date group: each run of `y`, `M`, `d`, `h`, `m` or `s` prints
 * the digits of that time field, one per letter, by dividing by powers of ten.
 *
 * Output is a returned string and the local time an input record; each clock
 * re-read inside a date group returns that same record. A run of letters
 * longer than the digits available divides by zero in `logger.cpp`, and
 * here yields `DivisionByZero`.
 */
module Logger {
  import opened Common

  /** `struct tm` as `localtime` fills it: years since 1900 and months from 0. */
  datatype DateTime = DateTime(year: nat, mon: nat, mday: nat, hour: nat, min: nat, sec: nat)

  /** `LOGGER_PATTERN`, with the line continuation joined. */
  const DefaultPattern: string :=
    "\U{1B}[0;37m%d{yyyy-MM-dd} %t{hh:mm:ss}\U{1B}[1;36m[%5p\U{1B}[1;36m][\U{1B}[1;37m%-15c\U{1B}[1;36m]\U{1B}[0;37m: %m%n\U{1B}[0m"

  const DebugColor: string := "\U{1B}[1;34m"
  const InfoColor: string := "\U{1B}[1;32m"
  const WarnColor: string := "\U{1B}[1;33m"
  const ErrorColor: string := "\U{1B}[1;31m"

  // ---------------------------------------------------------------------------
  // print
  // ---------------------------------------------------------------------------

  function Spaces(n: nat): (s: string)
    ensures |s| == n && forall k :: 0 <= k < n ==> s[k] == ' '
  {
    seq(n, _ => ' ')
  }

  /**
   * What `print` writes: the first `width` characters of the message (all of
   * it for width 0) and `width - |message|` spaces of padding, the padding
   * first when `leftJustify` is set.
   */
  function Justified(message: string, width: nat, leftJustify: bool): string
  {
    var shown := if width == 0 || width >= |message| then message else message[..width];
    var pad := Spaces(if width > |message| then width - |message| else 0);
    if leftJustify then pad + shown else shown + pad
  }

  /** Width 0 prints the message unchanged. */
  lemma JustifiedWidthZero(message: string, leftJustify: bool)
    ensures Justified(message, 0, leftJustify) == message
  {
    assert message + Spaces(0) == message;
    assert Spaces(0) + message == message;
  }

  /**
   * A positive width prints exactly that many characters: a prefix of the
   * message, as much of it as fits, and spaces on the side the flag picks.
   */
  lemma JustifiedShape(message: string, width: nat, leftJustify: bool)
    requires width > 0
    ensures var r := Justified(message, width, leftJustify);
      var k := if width < |message| then width else |message|;
      && |r| == width
      && (leftJustify ==> r[width - k..] == message[..k] && forall j :: 0 <= j < width - k ==> r[j] == ' ')
      && (!leftJustify ==> r[..k] == message[..k] && forall j :: k <= j < width ==> r[j] == ' ')
  {
    var k := if width < |message| then width else |message|;
    assert message[..|message|] == message;
  }

  /**
   * `print`: the message prefix unless `leftJustify`, then one space per
   * missing character, then the message prefix if `leftJustify`.
   */
  method Print(message: string, width: nat, leftJustify: bool) returns (out: string)
    ensures out == Justified(message, width, leftJustify)
  {
    out := "";
    var shown := message[..if width == 0 then |message| else if width < |message| then width else |message|];
    if !leftJustify {
      out := out + shown;
    }
    var i := 0;
    while i < width - |message|
      invariant 0 <= i && (width > |message| ==> i <= width - |message|) && (width <= |message| ==> i == 0)
      invariant out == (if leftJustify then "" else shown) + Spaces(i)
    {
      out := out + " ";
      i := i + 1;
    }
    if leftJustify {
      out := out + shown;
    }
  }

  // ---------------------------------------------------------------------------
  // The pattern interpreter
  // ---------------------------------------------------------------------------

  /** The fixed inputs of one `log` call. */
  datatype LogContext = LogContext(name: string, level: string, levelColor: string, message: string, now: DateTime)

  /**
   * The interpreter's variables: `within_brackets`, `within_token`,
   * `is_left_justify`, `num_digits_accum`, `prev_digit`, `num_digit_count`,
   * the `date_time` record, and the text written so far.
   */
  datatype Scan = Scan(
    brackets: bool, token: bool, left: bool, width: nat,
    prevDigit: char, digitCount: nat, date: DateTime, out: string)

  datatype LogResult = Printed(text: string) | DivisionByZero

  function InitialScan(now: DateTime): Scan
  {
    Scan(false, false, false, 0, ' ', 0, now, "")
  }

  /** A clock re-read inside a date group: the year gets 1900 added and the month 1. */
  function Adjusted(now: DateTime): DateTime
  {
    now.(year := now.year + 1900, mon := now.mon + 1)
  }

  predicate IsDateChar(c: char)
  {
    c == 'y' || c == 'M' || c == 'd' || c == 'h' || c == 'm' || c == 's'
  }

  function Field(d: DateTime, c: char): nat
    requires IsDateChar(c)
  {
    match c
    case 'y' => d.year
    case 'M' => d.mon
    case 'd' => d.mday
    case 'h' => d.hour
    case 'm' => d.min
    case _ => d.sec
  }

  function SetField(d: DateTime, c: char, v: nat): (r: DateTime)
    requires IsDateChar(c)
    ensures Field(r, c) == v
  {
    match c
    case 'y' => d.(year := v)
    case 'M' => d.(mon := v)
    case 'd' => d.(mday := v)
    case 'h' => d.(hour := v)
    case 'm' => d.(min := v)
    case _ => d.(sec := v)
  }

  /** The power of ten a letter divides by: `10^(3 - count)` for `y`, `10^(1 - count)` for the others. */
  function Exponent(c: char, count: nat): int
  {
    (if c == 'y' then 3 else 1) - count
  }

  /** `(int)pow(10, e)` for the exponents a date letter can reach without dividing by zero. */
  function Pow10(e: nat): (p: nat)
    requires e <= 3
    ensures p >= 1
  {
    if e == 0 then 1 else if e == 1 then 10 else if e == 2 then 100 else 1000
  }

  /** One character inside `{...}`. */
  function BracketStep(st: Scan, c: char, now: DateTime): Option<Scan>
  {
    var count := if c == st.prevDigit then st.digitCount + 1 else 0;
    var date := if c == st.prevDigit then st.date else Adjusted(now);
    if IsDateChar(c) then
      var e := Exponent(c, count);
      if e < 0 then None
      else
        var v := Field(date, c);
        Some(st.(digitCount := count, date := SetField(date, c, v % Pow10(e)),
                 out := st.out + NatToString(v / Pow10(e)), prevDigit := c))
    else if c == '}' then
      Some(st.(brackets := false, token := false, digitCount := count, date := date, prevDigit := c))
    else
      Some(st.(digitCount := count, date := date, out := st.out + [c], prevDigit := c))
  }

  /** The characters a token acts on; any other character just ends it. */
  predicate Recognised(c: char)
  {
    c == '{' || c == 'd' || c == 't' || c == 'm' || c == 'c' || c == 'n' || c == 'p' || c == '-' || '0' <= c <= '9'
  }

  /** One character of a token, outside any date group. */
  function TokenStep(st: Scan, c: char, ctx: LogContext): Scan
  {
    if c == '{' then st.(brackets := true)
    else if c == 'd' || c == 't' then st
    else if c == 'm' then st.(out := st.out + Justified(ctx.message, st.width, st.left), token := false)
    else if c == 'c' then st.(out := st.out + Justified(ctx.name, st.width, st.left), token := false)
    else if c == 'n' then st.(out := st.out + "\n", token := false)
    else if c == 'p' then
      st.(out := st.out + ctx.levelColor + Justified(ctx.level, st.width, st.left), token := false)
    else if c == '-' then st.(left := true)
    else if '0' <= c <= '9' then st.(width := st.width * 10 + ((c as int) - ('0' as int)))
    else st.(token := false)
  }

  /** One character outside a token. */
  function PlainStep(st: Scan, c: char): Scan
  {
    if c == '%' then st.(token := true, left := false, width := 0)
    else st.(out := st.out + [c])
  }

  /** One pattern character; `None` when it divides by zero. */
  function Step(st: Scan, c: char, ctx: LogContext): Option<Scan>
  {
    if st.brackets then BracketStep(st, c, ctx.now)
    else if st.token then Some(TokenStep(st, c, ctx))
    else Some(PlainStep(st, c))
  }

  /** The pattern read left to right. */
  function Run(st: Scan, p: string, ctx: LogContext): Option<Scan>
    decreases |p|
  {
    if p == [] then Some(st)
    else match Step(st, p[0], ctx)
      case None => None
      case Some(s) => Run(s, p[1..], ctx)
  }

  /** What `log` writes for one message. */
  function Render(pattern: string, ctx: LogContext): LogResult
  {
    match Run(InitialScan(ctx.now), pattern, ctx)
    case None => DivisionByZero
    case Some(s) => Printed(s.out)
  }

  lemma {:induction false} RunAppend(st: Scan, a: string, b: string, ctx: LogContext)
    ensures Run(st, a + b, ctx) == (match Run(st, a, ctx) case None => None case Some(s) => Run(s, b, ctx))
    decreases |a|
  {
    if a != [] {
      assert (a + b)[0] == a[0] && (a + b)[1..] == a[1..] + b;
      var r := Step(st, a[0], ctx);
      if r.Some? {
        RunAppend(r.value, a[1..], b, ctx);
      }
    } else {
      assert a + b == b;
    }
  }

  lemma RunSnoc(st: Scan, a: string, c: char, ctx: LogContext)
    ensures Run(st, a + [c], ctx) == (match Run(st, a, ctx) case None => None case Some(s) => Step(s, c, ctx))
  {
    RunAppend(st, a, [c], ctx);
    match Run(st, a, ctx)
    case None =>
    case Some(s) =>
      assert [c][1..] == [];
      match Step(s, c, ctx)
      case None =>
      case Some(s') =>
  }

  /** Outside a token, text without `%` is copied verbatim. */
  lemma {:induction false} PlainTextIsCopied(st: Scan, p: string, ctx: LogContext)
    requires !st.brackets && !st.token
    requires forall k :: 0 <= k < |p| ==> p[k] != '%'
    ensures Run(st, p, ctx) == Some(st.(out := st.out + p))
    decreases |p|
  {
    if p == [] {
      assert st.out + p == st.out;
    } else {
      var s := PlainStep(st, p[0]);
      PlainTextIsCopied(s, p[1..], ctx);
      assert st.out + [p[0]] + p[1..] == st.out + p;
    }
  }

  /** A pattern without `%` renders as itself. */
  lemma PatternWithoutTokens(pattern: string, ctx: LogContext)
    requires forall k :: 0 <= k < |pattern| ==> pattern[k] != '%'
    ensures Render(pattern, ctx) == Printed(pattern)
  {
    PlainTextIsCopied(InitialScan(ctx.now), pattern, ctx);
  }

  /** A one-letter token prints its field as it is. */
  lemma SingleTokens(ctx: LogContext)
    ensures Render("%m", ctx) == Printed(ctx.message)
    ensures Render("%n", ctx) == Printed("\n")
    ensures Render("%p", ctx) == Printed(ctx.levelColor + ctx.level)
  {
    var s0 := InitialScan(ctx.now);
    JustifiedWidthZero(ctx.message, false);
    JustifiedWidthZero(ctx.level, false);
    assert Run(s0, "%m", ctx) == Run(PlainStep(s0, '%'), "m", ctx);
    assert Run(s0, "%n", ctx) == Run(PlainStep(s0, '%'), "n", ctx);
    assert Run(s0, "%p", ctx) == Run(PlainStep(s0, '%'), "p", ctx);
  }

  /** A width between `%` and the letter pads the field after it; a `-` puts the padding before the field. */
  lemma WidthTokens(ctx: LogContext)
    ensures Render("%5p", ctx) == Printed(ctx.levelColor + Justified(ctx.level, 5, false))
    ensures Render("%-15c", ctx) == Printed(Justified(ctx.name, 15, true))
  {
    var s0 := InitialScan(ctx.now);
    var s1 := PlainStep(s0, '%');
    assert Run(s0, "%5p", ctx) == Run(s1, "5p", ctx);
    assert Run(s1, "5p", ctx) == Run(TokenStep(s1, '5', ctx), "p", ctx);
    assert Run(s0, "%-15c", ctx) == Run(s1, "-15c", ctx);
    var s2 := TokenStep(s1, '-', ctx);
    assert Run(s1, "-15c", ctx) == Run(s2, "15c", ctx);
    var s3 := TokenStep(s2, '1', ctx);
    assert Run(s2, "15c", ctx) == Run(s3, "5c", ctx);
    assert Run(s3, "5c", ctx) == Run(TokenStep(s3, '5', ctx), "c", ctx);
  }

  /** An unrecognised token character ends the token and prints nothing; `%%` prints nothing either. */
  lemma UnknownTokenPrintsNothing(ctx: LogContext, c: char)
    requires !Recognised(c)
    ensures Render(['%', c], ctx) == Printed("")
  {
    var s0 := InitialScan(ctx.now);
    var s1 := PlainStep(s0, '%');
    assert Run(s0, ['%', c], ctx) == Run(s1, [c], ctx);
    assert Run(s1, [c], ctx) == Run(TokenStep(s1, c, ctx), [], ctx);
  }

  // ---------------------------------------------------------------------------
  // Date groups
  // ---------------------------------------------------------------------------

  /** `v` as two decimal digits, with a leading zero below 10. */
  function TwoDigits(v: nat): (s: string)
    requires v < 100
    ensures |s| == 2
  {
    [DigitChar(v / 10), DigitChar(v % 10)]
  }

  /** `v` as four decimal digits, with leading zeros. */
  function FourDigits(v: nat): (s: string)
    requires v < 10000
    ensures |s| == 4
  {
    [DigitChar(v / 1000), DigitChar(v / 100 % 10), DigitChar(v / 10 % 10), DigitChar(v % 10)]
  }

  lemma SmallNatToString(d: nat)
    requires d < 10
    ensures NatToString(d) == [DigitChar(d)]
  {
  }

  lemma DivModSteps(v: nat, p: nat, q: nat)
    requires p > 0 && q > 0
    ensures v % (p * q) / q == v / q % p
    ensures v % (p * q) % q == v % q
  {
    var a := v / (p * q);
    var r := v % (p * q);
    assert v == a * (p * q) + r;
    var b := r / q;
    var t := r % q;
    assert r == b * q + t;
    assert v == (a * p + b) * q + t;
    ModUnique(v, q, a * p + b, t);
    assert b < p by {
      if b >= p {
        MulMonotone(b, p, q);
      }
    }
    ModUnique(v / q, p, a, b);
  }

  /**
   * Two equal date letters in a group, starting a new run, print that field
   * of the re-read clock as two zero-padded digits.
   */
  lemma TwoLetterRun(st: Scan, c: char, ctx: LogContext)
    requires st.brackets && IsDateChar(c) && c != 'y' && st.prevDigit != c
    requires Field(Adjusted(ctx.now), c) < 100
    ensures Run(st, [c, c], ctx).Some?
    ensures Run(st, [c, c], ctx).value.out == st.out + TwoDigits(Field(Adjusted(ctx.now), c))
    ensures Run(st, [c, c], ctx).value.brackets && Run(st, [c, c], ctx).value.prevDigit == c
  {
    var v := Field(Adjusted(ctx.now), c);
    var d1 := SetField(Adjusted(ctx.now), c, v % 10);
    var s1 := st.(digitCount := 0, date := d1, out := st.out + NatToString(v / 10), prevDigit := c);
    assert Step(st, c, ctx) == Some(s1);
    var s2 := s1.(digitCount := 1, date := SetField(d1, c, v % 10 % 1), out := s1.out + NatToString(v % 10 / 1));
    assert Step(s1, c, ctx) == Some(s2);
    RunPair(st, c, c, ctx);
    SmallNatToString(v / 10);
    SmallNatToString(v % 10);
    assert s2.out == st.out + TwoDigits(v);
  }

  lemma RunPair(st: Scan, c1: char, c2: char, ctx: LogContext)
    requires Step(st, c1, ctx).Some?
    ensures Run(st, [c1, c2], ctx) == Step(Step(st, c1, ctx).value, c2, ctx)
  {
    assert [c1, c2][1..] == [c2];
    var s1 := Step(st, c1, ctx).value;
    assert Run(s1, [c2], ctx) == Step(s1, c2, ctx) by {
      assert [c2][1..] == [];
    }
  }

  /** Four `y` letters starting a run print the year of the re-read clock as four digits. */
  lemma FourLetterYearRun(st: Scan, ctx: LogContext)
    requires st.brackets && st.prevDigit != 'y'
    requires ctx.now.year + 1900 < 10000
    ensures Run(st, "yyyy", ctx).Some?
    ensures Run(st, "yyyy", ctx).value.out == st.out + FourDigits(ctx.now.year + 1900)
    ensures Run(st, "yyyy", ctx).value.brackets && Run(st, "yyyy", ctx).value.prevDigit == 'y'
  {
    var y := ctx.now.year + 1900;
    var d0 := Adjusted(ctx.now);
    DivModSteps(y, 10, 100);
    DivModSteps(y, 10, 10);
    var s1 := st.(digitCount := 0, date := d0.(year := y % 1000), out := st.out + NatToString(y / 1000), prevDigit := 'y');
    assert Step(st, 'y', ctx) == Some(s1);
    var s2 := s1.(digitCount := 1, date := d0.(year := y % 100), out := s1.out + NatToString(y / 100 % 10));
    assert Step(s1, 'y', ctx) == Some(s2);
    var s3 := s2.(digitCount := 2, date := d0.(year := y % 10), out := s2.out + NatToString(y / 10 % 10));
    assert Step(s2, 'y', ctx) == Some(s3);
    var s4 := s3.(digitCount := 3, date := d0.(year := 0), out := s3.out + NatToString(y % 10));
    assert Step(s3, 'y', ctx) == Some(s4);
    RunPair(st, 'y', 'y', ctx);
    RunPair(s2, 'y', 'y', ctx);
    RunAppend(st, "yy", "yy", ctx);
    assert "yyyy" == "yy" + "yy";
    SmallNatToString(y / 1000);
    SmallNatToString(y / 100 % 10);
    SmallNatToString(y / 10 % 10);
    SmallNatToString(y % 10);
    assert s4.out == st.out + FourDigits(y);
  }

  /**
   * The date group of the default pattern prints the year, month and day as
   * `yyyy-MM-dd`, zero-padded, for a year below 10000.
   */
  lemma DateGroup(ctx: LogContext)
    requires ctx.now.year + 1900 < 10000 && ctx.now.mon < 12 && ctx.now.mday < 100
    ensures Render("%d{yyyy-MM-dd}", ctx)
      == Printed(FourDigits(ctx.now.year + 1900) + "-" + TwoDigits(ctx.now.mon + 1) + "-" + TwoDigits(ctx.now.mday))
  {
    var s0 := InitialScan(ctx.now);
    assert "%d{yyyy-MM-dd}" == "%d{" + ("yyyy-" + "MM-dd}");
    DateOpen(ctx);
    RunThen(s0, "%d{", "yyyy-" + "MM-dd}", ctx);
    DateGroupBody(Run(s0, "%d{", ctx).value, ctx);
  }

  /** `%d{` opens a date group and prints nothing. */
  lemma DateOpen(ctx: LogContext)
    ensures Run(InitialScan(ctx.now), "%d{", ctx).Some?
    ensures Run(InitialScan(ctx.now), "%d{", ctx).value.brackets
    ensures Run(InitialScan(ctx.now), "%d{", ctx).value.prevDigit == ' '
    ensures Run(InitialScan(ctx.now), "%d{", ctx).value.out == ""
  {
    var s1 := PlainStep(InitialScan(ctx.now), '%');
    assert Run(InitialScan(ctx.now), "%d{", ctx) == Run(s1, "d{", ctx);
    RunPair(s1, 'd', '{', ctx);
    assert "d{" == ['d', '{'];
  }

  /** The inside of the group `yyyy-MM-dd}`, read from a fresh group. */
  lemma DateGroupBody(st: Scan, ctx: LogContext)
    requires st.brackets && st.prevDigit != 'y' && st.out == ""
    requires ctx.now.year + 1900 < 10000 && ctx.now.mon < 12 && ctx.now.mday < 100
    ensures Run(st, "yyyy-" + "MM-dd}", ctx).Some?
    ensures Run(st, "yyyy-" + "MM-dd}", ctx).value.out
      == FourDigits(ctx.now.year + 1900) + "-" + TwoDigits(ctx.now.mon + 1) + "-" + TwoDigits(ctx.now.mday)
  {
    var Y, M, D := FourDigits(ctx.now.year + 1900), TwoDigits(ctx.now.mon + 1), TwoDigits(ctx.now.mday);
    YearPiece(st, ctx);
    MonthDayPiece(Run(st, "yyyy-", ctx).value, ctx);
    RunThen(st, "yyyy-", "MM-dd}", ctx);
    EmptyLeft(st.out, Y);
  }

  /** Nothing printed before a piece leaves the piece alone. */
  lemma EmptyLeft(e: string, y: string)
    requires e == []
    ensures e + y == y
  {
  }

  /** `MM-dd}`: month and day of the month, two digits each, separated by a dash. */
  lemma MonthDayPiece(st: Scan, ctx: LogContext)
    requires st.brackets && st.prevDigit == '-'
    requires ctx.now.mon < 12 && ctx.now.mday < 100
    ensures Run(st, "MM-dd}", ctx).Some?
    ensures Run(st, "MM-dd}", ctx).value.out == st.out + TwoDigits(ctx.now.mon + 1) + "-" + TwoDigits(ctx.now.mday)
  {
    TwoLetterPiece(st, 'M', '-', ctx);
    var d := Run(st, ['M', 'M', '-'], ctx).value;
    TwoLetterPiece(d, 'd', '}', ctx);
    RunThen(st, ['M', 'M', '-'], ['d', 'd', '}'], ctx);
    assert ['M', 'M', '-'] + ['d', 'd', '}'] == "MM-dd}";
  }

  /** `yyyy-` inside a group: the four-digit year, then the dash. */
  lemma YearPiece(st: Scan, ctx: LogContext)
    requires st.brackets && st.prevDigit != 'y' && ctx.now.year + 1900 < 10000
    ensures Run(st, "yyyy-", ctx).Some?
    ensures Run(st, "yyyy-", ctx).value.out == st.out + FourDigits(ctx.now.year + 1900) + "-"
    ensures Run(st, "yyyy-", ctx).value.brackets && Run(st, "yyyy-", ctx).value.prevDigit == '-'
  {
    FourLetterYearRun(st, ctx);
    var a := Run(st, "yyyy", ctx).value;
    RunThen(st, "yyyy", "-", ctx);
    assert "yyyy-" == "yyyy" + "-";
    assert Run(a, "-", ctx) == Step(a, '-', ctx) by {
      assert "-"[1..] == [];
    }
  }

  /** Two equal date letters and then a separator (`-` or the closing `}`) inside a group. */
  lemma TwoLetterPiece(st: Scan, c: char, sep: char, ctx: LogContext)
    requires st.brackets && IsDateChar(c) && c != 'y' && st.prevDigit != c && Field(Adjusted(ctx.now), c) < 100
    requires sep == '-' || sep == '}'
    ensures Run(st, [c, c, sep], ctx).Some?
    ensures Run(st, [c, c, sep], ctx).value.out
      == st.out + TwoDigits(Field(Adjusted(ctx.now), c)) + (if sep == '-' then "-" else "")
    ensures sep == '-' ==> Run(st, [c, c, sep], ctx).value.brackets && Run(st, [c, c, sep], ctx).value.prevDigit == '-'
  {
    TwoLetterRun(st, c, ctx);
    var a := Run(st, [c, c], ctx).value;
    RunThen(st, [c, c], [sep], ctx);
    assert [c, c, sep] == [c, c] + [sep];
    assert Run(a, [sep], ctx) == Step(a, sep, ctx) by {
      assert [sep][1..] == [];
    }
  }

  lemma RunThen(st: Scan, a: string, b: string, ctx: LogContext)
    requires Run(st, a, ctx).Some?
    ensures Run(st, a + b, ctx) == Run(Run(st, a, ctx).value, b, ctx)
  {
    RunAppend(st, a, b, ctx);
  }

  /** A fifth `y`, or a third letter of another field, divides by zero. */
  lemma LongRunsDivideByZero(ctx: LogContext)
    ensures Render("%d{yyyyy}", ctx) == DivisionByZero
    ensures Render("%d{MMM}", ctx) == DivisionByZero
  {
    var s0 := InitialScan(ctx.now);
    var s3 := TokenStep(TokenStep(PlainStep(s0, '%'), 'd', ctx), '{', ctx);
    assert Run(s0, "%d{yyyyy}", ctx) == Run(s3, "yyyyy}", ctx);
    var y1 := BracketStep(s3, 'y', ctx.now).value;
    var y2 := BracketStep(y1, 'y', ctx.now).value;
    var y3 := BracketStep(y2, 'y', ctx.now).value;
    var y4 := BracketStep(y3, 'y', ctx.now).value;
    assert y4.digitCount == 3;
    assert BracketStep(y4, 'y', ctx.now) == None;
    assert Run(s3, "yyyyy}", ctx) == Run(y1, "yyyy}", ctx);
    assert Run(y1, "yyyy}", ctx) == Run(y2, "yyy}", ctx);
    assert Run(y2, "yyy}", ctx) == Run(y3, "yy}", ctx);
    assert Run(y3, "yy}", ctx) == Run(y4, "y}", ctx);
    assert Run(s0, "%d{MMM}", ctx) == Run(s3, "MMM}", ctx);
    var m1 := BracketStep(s3, 'M', ctx.now).value;
    var m2 := BracketStep(m1, 'M', ctx.now).value;
    assert BracketStep(m2, 'M', ctx.now) == None;
    assert Run(s3, "MMM}", ctx) == Run(m1, "MM}", ctx);
    assert Run(m1, "MM}", ctx) == Run(m2, "M}", ctx);
  }

  // ---------------------------------------------------------------------------
  // The logger
  // ---------------------------------------------------------------------------

  class Logger {
    const pattern: string
    const name: string

    constructor (pattern: string, name: string)
      ensures this.pattern == pattern && this.name == name
    {
      this.pattern := pattern;
      this.name := name;
    }

    /** The constructor that takes only a name uses the default pattern. */
    constructor Named(name: string)
      ensures pattern == DefaultPattern && this.name == name
    {
      this.pattern := DefaultPattern;
      this.name := name;
    }

    /** `log`: the pattern interpreted character by character. */
    method Log(level: string, levelColor: string, message: string, now: DateTime) returns (r: LogResult)
      ensures r == Render(pattern, LogContext(name, level, levelColor, message, now))
    {
      ghost var ctx := LogContext(name, level, levelColor, message, now);
      var withinBrackets := false;
      var withinToken := false;
      var isLeftJustify := false;
      var numDigitsAccum: nat := 0;
      var dateTime := now;
      var prevDigit := ' ';
      var numDigitCount: nat := 0;
      var out := "";
      for i := 0 to |pattern|
        invariant Run(InitialScan(now), pattern[..i], ctx)
          == Some(Scan(withinBrackets, withinToken, isLeftJustify, numDigitsAccum, prevDigit, numDigitCount, dateTime, out))
      {
        ghost var st := Scan(withinBrackets, withinToken, isLeftJustify, numDigitsAccum, prevDigit, numDigitCount, dateTime, out);
        var c := pattern[i];
        assert pattern[..i + 1] == pattern[..i] + [c];
        RunSnoc(InitialScan(now), pattern[..i], c, ctx);
        if withinBrackets {
          if c == prevDigit {
            numDigitCount := numDigitCount + 1;
          } else {
            numDigitCount := 0;
            dateTime := Adjusted(now);
          }
          if IsDateChar(c) {
            var e := Exponent(c, numDigitCount);
            if e < 0 {
              assert Run(InitialScan(now), pattern[..i + 1], ctx) == None;
              RunAppend(InitialScan(now), pattern[..i + 1], pattern[i + 1..], ctx);
              assert pattern[..i + 1] + pattern[i + 1..] == pattern;
              return DivisionByZero;
            }
            var v := Field(dateTime, c);
            out := out + NatToString(v / Pow10(e));
            dateTime := SetField(dateTime, c, v % Pow10(e));
          } else if c == '}' {
            withinBrackets := false;
            withinToken := false;
          } else {
            out := out + [c];
          }
          prevDigit := c;
        } else if withinToken {
          if c == '{' {
            withinBrackets := true;
          } else if c == 'd' || c == 't' {
          } else if c == 'm' {
            var s := Print(message, numDigitsAccum, isLeftJustify);
            out := out + s;
            withinToken := false;
          } else if c == 'c' {
            var s := Print(name, numDigitsAccum, isLeftJustify);
            out := out + s;
            withinToken := false;
          } else if c == 'n' {
            out := out + "\n";
            withinToken := false;
          } else if c == 'p' {
            out := out + levelColor;
            var s := Print(level, numDigitsAccum, isLeftJustify);
            out := out + s;
            withinToken := false;
          } else if c == '-' {
            isLeftJustify := true;
          } else if '0' <= c <= '9' {
            numDigitsAccum := numDigitsAccum * 10;
            numDigitsAccum := numDigitsAccum + ((c as int) - ('0' as int));
          } else {
            withinToken := false;
          }
        } else {
          if c == '%' {
            withinToken := true;
            isLeftJustify := false;
            numDigitsAccum := 0;
          } else {
            out := out + [c];
          }
        }
      }
      assert pattern[..|pattern|] == pattern;
      r := Printed(out);
    }

    method Debug(message: string, now: DateTime) returns (r: LogResult)
      ensures r == Render(pattern, LogContext(name, "DEBUG", DebugColor, message, now))
    {
      r := Log("DEBUG", DebugColor, message, now);
    }

    method Info(message: string, now: DateTime) returns (r: LogResult)
      ensures r == Render(pattern, LogContext(name, "INFO", InfoColor, message, now))
    {
      r := Log("INFO", InfoColor, message, now);
    }

    method Warn(message: string, now: DateTime) returns (r: LogResult)
      ensures r == Render(pattern, LogContext(name, "WARN", WarnColor, message, now))
    {
      r := Log("WARN", WarnColor, message, now);
    }

    method Error(message: string, now: DateTime) returns (r: LogResult)
      ensures r == Render(pattern, LogContext(name, "ERROR", ErrorColor, message, now))
    {
      r := Log("ERROR", ErrorColor, message, now);
    }
  }
}

=== FILE: obj_loader.dfy ===
/**
 * The per-line rules of the engine's OBJ mesh loader. Every line is split on
 * spaces. A `v` line adds a vertex position, or a normal when its second
 * character is `n`. An `f` line writes three vertices into the current mesh
 * block, taking its corners' position and normal indices (1-based) from
 * `a/b/c`. A new block is opened when there is none yet or the current one is
 * full, and the loader finally logs the number of vertices written.
 *
 * `strtof` is left abstract: a coordinate is kept as the text it would be
 * parsed from. `strtol` is modelled on unbounded integers.
 */
module ObjLoader {
  import opened Common
  import opened StringSplit

  /** `MESH_BLOCK_SIZE`: the vertex slots in one mesh block. */
  const MeshBlockSize: nat := 65568 * 3

  /** `size_t` arithmetic is modulo 2^64. */
  const SizeMod: nat := 0x1_0000_0000_0000_0000

  // ---------------------------------------------------------------------------
  // strtol
  // ---------------------------------------------------------------------------

  predicate IsSpace(c: char)
  {
    c == ' ' || c == '\t' || c == '\n' || c == '\U{0B}' || c == '\U{0C}' || c == '\r'
  }

  predicate IsDigit(c: char)
  {
    '0' <= c <= '9'
  }

  function SkipSpace(s: string): (t: string)
    ensures |t| > 0 ==> !IsSpace(t[0])
  {
    if |s| > 0 && IsSpace(s[0]) then SkipSpace(s[1..]) else s
  }

  /** The longest prefix of `s` made of decimal digits. */
  function DigitPrefix(s: string): (p: string)
    ensures forall k :: 0 <= k < |p| ==> IsDigit(p[k])
  {
    if |s| > 0 && IsDigit(s[0]) then [s[0]] + DigitPrefix(s[1..]) else []
  }

  function DigitValue(c: char): (v: nat)
    requires IsDigit(c)
    ensures v < 10
  {
    (c as int) - ('0' as int)
  }

  /** The value of a string of decimal digits. */
  function DigitsValue(s: string): nat
    requires forall k :: 0 <= k < |s| ==> IsDigit(s[k])
  {
    if s == [] then 0 else DigitsValue(s[..|s| - 1]) * 10 + DigitValue(s[|s| - 1])
  }

  /** `strtol(s, NULL, 10)`: leading white space, an optional sign, then decimal digits. */
  function Strtol(s: string): int
  {
    var t := SkipSpace(s);
    if |t| > 0 && t[0] == '-' then 0 - DigitsValue(DigitPrefix(t[1..])) as int
    else if |t| > 0 && t[0] == '+' then DigitsValue(DigitPrefix(t[1..]))
    else DigitsValue(DigitPrefix(t))
  }

  lemma {:induction false} DigitsValueOfNatToString(n: nat)
    ensures DigitsValue(NatToString(n)) == n
    decreases n
  {
    var s := NatToString(n);
    if n >= 10 {
      DigitsValueOfNatToString(n / 10);
      assert s[..|s| - 1] == NatToString(n / 10);
    }
  }

  lemma {:induction false} DigitPrefixOfDigits(s: string)
    requires forall k :: 0 <= k < |s| ==> IsDigit(s[k])
    ensures DigitPrefix(s) == s
    decreases |s|
  {
    if |s| > 0 {
      DigitPrefixOfDigits(s[1..]);
    }
  }

  /** `strtol` reads back the decimal rendering of any natural number. */
  lemma StrtolOfNatToString(n: nat)
    ensures Strtol(NatToString(n)) == n
  {
    var s := NatToString(n);
    DigitPrefixOfDigits(s);
    DigitsValueOfNatToString(n);
  }

  // ---------------------------------------------------------------------------
  // Loader state and one line
  // ---------------------------------------------------------------------------

  /** A coordinate triple, each coordinate the text `strtof` parses it from. */
  datatype Vec3 = Vec3(x: string, y: string, z: string)

  /** One written vertex: its position and its normal. */
  datatype MeshVertex = MeshVertex(position: Vec3, normal: Vec3)

  /**
   * `vertices`, `vertex_normals`, the written part of each mesh block (the
   * last one is `current`) and the fill index `i` of the current block.
   */
  datatype ObjState = ObjState(vertices: seq<Vec3>, normals: seq<Vec3>, blocks: seq<seq<MeshVertex>>, i: int)

  function Initial(): ObjState
  {
    ObjState([], [], [], 0)
  }

  /** `line[k]`: the terminating NUL at `k == |line|`. */
  function CharAt(line: string, k: nat): char
  {
    if k < |line| then line[k] else '\0'
  }

  /** A face corner `a/b/c` whose `a` names a known vertex and `c` a known normal. */
  predicate CornerOk(st: ObjState, e: string)
  {
    var sub := Split(e, "/");
    |sub| >= 3 && 1 <= Strtol(sub[0]) <= |st.vertices| && 1 <= Strtol(sub[2]) <= |st.normals|
  }

  /** The vertex a face corner writes: position `a - 1` and normal `c - 1`. */
  function Corner(st: ObjState, e: string): MeshVertex
    requires CornerOk(st, e)
  {
    var sub := Split(e, "/");
    MeshVertex(st.vertices[Strtol(sub[0]) - 1], st.normals[Strtol(sub[2]) - 1])
  }

  /**
   * The lines the loader reads without undefined behaviour: a `v` line has
   * three coordinates, an `f` line three corners naming loaded entries.
   */
  predicate LineOk(st: ObjState, line: string)
  {
    |line| > 0 ==>
      var el := Split(line, " ");
      && (line[0] == 'v' ==> |el| >= 4)
      && (line[0] == 'f' ==> FaceOk(st, el))
  }

  /** The elements of an `f` line: the first three corners after the `f` are well formed. */
  predicate FaceOk(st: ObjState, el: seq<string>)
  {
    |el| >= 4 && forall j :: 1 <= j <= 3 ==> CornerOk(st, el[j])
  }

  /** The three vertices a face writes, in corner order. */
  function FaceCorners(st: ObjState, el: seq<string>): (c: seq<MeshVertex>)
    requires FaceOk(st, el)
    ensures |c| == 3
  {
    [Corner(st, el[1]), Corner(st, el[2]), Corner(st, el[3])]
  }

  lemma FaceCornerAt(st: ObjState, el: seq<string>, j: nat)
    requires FaceOk(st, el) && j < 3
    ensures FaceCorners(st, el)[j] == Corner(st, el[j + 1])
  {
    assert CornerOk(st, el[j + 1]);
  }

  /** A face opens a new block when there is none yet or the current one is full. */
  predicate NeedsNewBlock(st: ObjState)
  {
    st.blocks == [] || st.i == MeshBlockSize
  }

  /**
   * An `f` line: open a new block if needed, then write its three vertices
   * at `i` in the current block.
   */
  function AddFace(st: ObjState, corners: seq<MeshVertex>): (r: ObjState)
    ensures |r.blocks| > 0 && r.vertices == st.vertices && r.normals == st.normals
  {
    var ready := if NeedsNewBlock(st) then st.(blocks := st.blocks + [[]], i := 0) else st;
    var n := |ready.blocks|;
    ready.(blocks := ready.blocks[n - 1 := ready.blocks[n - 1] + corners], i := ready.i + |corners|)
  }

  /** The loader state after one line. */
  function LineStep(st: ObjState, line: string): ObjState
    requires LineOk(st, line)
  {
    if |line| == 0 then st
    else
      var el := Split(line, " ");
      if line[0] == 'v' then
        var arr := Vec3(el[1], el[2], el[3]);
        if CharAt(line, 1) == 'n' then st.(normals := st.normals + [arr])
        else st.(vertices := st.vertices + [arr])
      else if line[0] == 'f' then AddFace(st, FaceCorners(st, el))
      else st
  }

  /** Every line of `lines`, read in order from `st`, is one the loader handles. */
  predicate LinesOk(st: ObjState, lines: seq<string>)
    decreases |lines|
  {
    lines != [] ==> LineOk(st, lines[0]) && LinesOk(LineStep(st, lines[0]), lines[1..])
  }

  function LoadAll(st: ObjState, lines: seq<string>): ObjState
    requires LinesOk(st, lines)
    decreases |lines|
  {
    if lines == [] then st else LoadAll(LineStep(st, lines[0]), lines[1..])
  }

  // ---------------------------------------------------------------------------
  // Properties
  // ---------------------------------------------------------------------------

  /** Vertices written, over all blocks. */
  function Total(blocks: seq<seq<MeshVertex>>): nat
  {
    if blocks == [] then 0 else Total(blocks[..|blocks| - 1]) + |blocks[|blocks| - 1]|
  }

  /**
   * The fill invariant: `i` counts the vertices of the current block, is a
   * multiple of three and never passes the block size, and every earlier
   * block is full.
   */
  predicate Inv(st: ObjState)
  {
    && st.i % 3 == 0 && 0 <= st.i <= MeshBlockSize
    && (st.blocks == [] ==> st.i == 0)
    && (st.blocks != [] ==> st.i == |st.blocks[|st.blocks| - 1]|)
    && forall b :: 0 <= b < |st.blocks| - 1 ==> |st.blocks[b]| == MeshBlockSize
  }

  lemma RoomForAFace(i: int)
    requires 0 <= i < MeshBlockSize && i % 3 == 0
    ensures i + 3 <= MeshBlockSize && (i + 3) % 3 == 0
  {
    ModUnique(i, 3, i / 3, 0);
    ModUnique(i + 3, 3, i / 3 + 1, 0);
  }

  /** A face keeps the fill invariant and writes exactly three vertices. */
  lemma AddFaceKeepsInv(st: ObjState, corners: seq<MeshVertex>)
    requires Inv(st) && |corners| == 3
    ensures Inv(AddFace(st, corners))
    ensures Total(AddFace(st, corners).blocks) == Total(st.blocks) + 3
  {
    var ready := if NeedsNewBlock(st) then st.(blocks := st.blocks + [[]], i := 0) else st;
    var n := |ready.blocks|;
    if NeedsNewBlock(st) {
      assert ready.blocks[..n - 1] == st.blocks;
    } else {
      RoomForAFace(st.i);
    }
    assert Total(ready.blocks) == Total(st.blocks);
    var next := AddFace(st, corners);
    assert next.blocks[..n - 1] == ready.blocks[..n - 1];
  }

  /** One line keeps the fill invariant, and a face line writes exactly three vertices. */
  lemma LineStepKeepsInv(st: ObjState, line: string)
    requires Inv(st) && LineOk(st, line)
    ensures Inv(LineStep(st, line))
    ensures Total(LineStep(st, line).blocks) == Total(st.blocks) + (if |line| > 0 && line[0] == 'f' then 3 else 0)
  {
    if |line| > 0 && line[0] == 'f' {
      var el := Split(line, " ");
      AddFaceKeepsInv(st, FaceCorners(st, el));
    }
  }

  function FaceLines(lines: seq<string>): nat
  {
    if lines == [] then 0
    else (if |lines[0]| > 0 && lines[0][0] == 'f' then 1 else 0) + FaceLines(lines[1..])
  }

  /** Loading keeps the fill invariant and writes three vertices per face line. */
  lemma {:induction false} LoadAllKeepsInv(st: ObjState, lines: seq<string>)
    requires Inv(st) && LinesOk(st, lines)
    ensures Inv(LoadAll(st, lines))
    ensures Total(LoadAll(st, lines).blocks) == Total(st.blocks) + 3 * FaceLines(lines)
    decreases |lines|
  {
    if lines != [] {
      LineStepKeepsInv(st, lines[0]);
      LoadAllKeepsInv(LineStep(st, lines[0]), lines[1..]);
    }
  }

  /** A `v` line's second character picks its list: `n` for the normals, anything else for the positions. */
  lemma VertexLineGoesToItsList(st: ObjState, line: string)
    requires LineOk(st, line) && |line| > 0 && line[0] == 'v'
    ensures var el := Split(line, " ");
      var next := LineStep(st, line);
      if CharAt(line, 1) == 'n' then
        next.normals == st.normals + [Vec3(el[1], el[2], el[3])] && next.vertices == st.vertices
      else
        next.vertices == st.vertices + [Vec3(el[1], el[2], el[3])] && next.normals == st.normals
  {
  }

  lemma {:induction false} SplitAtFirst(x: string, y: string, d: char)
    requires forall k :: 0 <= k < |x| ==> x[k] != d
    ensures Split(x + [d] + y, [d]) == [x] + Split(y, [d])
  {
    var s := x + [d] + y;
    assert OccursAt(s, [d], |x|);
    var r := Find(s, [d]);
    forall k: nat | k < |x|
      ensures !OccursAt(s, [d], k)
    {
      assert s[k] == x[k];
    }
    assert r.value == |x|;
    assert s[..|x|] == x;
    assert s[|x| + 1..] == y;
    SplitAtFind(s, [d]);
  }

  /** Two parts free of `/`, joined by `/`, split back into those two parts. */
  lemma SplitTwo(B: string, C: string)
    requires forall k :: 0 <= k < |B| ==> B[k] != '/'
    requires forall k :: 0 <= k < |C| ==> C[k] != '/'
    ensures Split(B + ['/'] + C, ['/']) == [B, C]
  {
    SplitAtFirst(B, C, '/');
    NoCharNoDelimiter(C, '/');
    SplitWithoutDelimiter(C, ['/']);
  }

  /** Three parts free of `/`, joined by `/`, split back into those three parts. */
  lemma SplitThree(A: string, B: string, C: string)
    requires forall k :: 0 <= k < |A| ==> A[k] != '/'
    requires forall k :: 0 <= k < |B| ==> B[k] != '/'
    requires forall k :: 0 <= k < |C| ==> C[k] != '/'
    ensures Split(A + "/" + B + "/" + C, "/") == [A, B, C]
  {
    var BC := B + ['/'] + C;
    assert A + "/" + B + "/" + C == A + ['/'] + BC;
    SplitAtFirst(A, BC, '/');
    SplitTwo(B, C);
  }

  /** The corner `a/b/c`, with each index written in decimal, uses position `a - 1` and normal `c - 1`. */
  lemma CornerOfRenderedIndices(st: ObjState, a: nat, b: nat, c: nat)
    requires 1 <= a <= |st.vertices| && 1 <= c <= |st.normals|
    ensures var e := NatToString(a) + "/" + NatToString(b) + "/" + NatToString(c);
      CornerOk(st, e) && Corner(st, e) == MeshVertex(st.vertices[a - 1], st.normals[c - 1])
  {
    var A, B, C := NatToString(a), NatToString(b), NatToString(c);
    SplitThree(A, B, C);
    StrtolOfNatToString(a);
    StrtolOfNatToString(c);
  }

  // ---------------------------------------------------------------------------
  // The report
  // ---------------------------------------------------------------------------

  /**
   * The logged count as written: `(blocks.size() - 1) * MESH_BLOCK_SIZE + i`
   * evaluated in `size_t`, so the subtraction wraps when there is no block.
   */
  function ReportedCountAsWritten(st: ObjState): (n: nat)
    requires 0 <= st.i
    ensures n < SizeMod
  {
    (((|st.blocks| - 1) % SizeMod) * MeshBlockSize + st.i) % SizeMod
  }

  /** The evidently intended count: zero when no block was opened. */
  function ReportedCount(st: ObjState): int
  {
    if st.blocks == [] then 0 else (|st.blocks| - 1) * MeshBlockSize + st.i
  }

  lemma {:induction false} TotalOfFullBlocks(blocks: seq<seq<MeshVertex>>)
    requires forall b :: 0 <= b < |blocks| ==> |blocks[b]| == MeshBlockSize
    ensures Total(blocks) == |blocks| * MeshBlockSize
    decreases |blocks|
  {
    if blocks != [] {
      TotalOfFullBlocks(blocks[..|blocks| - 1]);
    }
  }

  /** The intended count is the number of vertices written. */
  lemma ReportedCountIsTotal(st: ObjState)
    requires Inv(st)
    ensures ReportedCount(st) == Total(st.blocks)
  {
    if st.blocks != [] {
      TotalOfFullBlocks(st.blocks[..|st.blocks| - 1]);
    }
  }

  /** With at least one block, the count as written is the number of vertices written. */
  lemma ReportedCountAsWrittenWithBlocks(st: ObjState)
    requires Inv(st) && st.blocks != [] && Total(st.blocks) < SizeMod
    ensures ReportedCountAsWritten(st) == Total(st.blocks)
  {
    ReportedCountIsTotal(st);
    ModUnique(|st.blocks| - 1, SizeMod, 0, |st.blocks| - 1);
    ModUnique(Total(st.blocks), SizeMod, 0, Total(st.blocks));
  }

  /** A file without faces opens no block, and the count as written is 2^64 - 196704 instead of 0. */
  lemma ReportedCountAsWrittenWithoutFaces()
    ensures Total(Initial().blocks) == 0
    ensures ReportedCountAsWritten(Initial()) == SizeMod - MeshBlockSize
  {
    ModUnique(-1, SizeMod, -1, SizeMod - 1);
    ModUnique((SizeMod - 1) * MeshBlockSize, SizeMod, MeshBlockSize - 1, SizeMod - MeshBlockSize);
  }

  function ReportMessage(st: ObjState): string
  {
    "Mesh loaded with " + NatToString(if ReportedCount(st) >= 0 then ReportedCount(st) else 0)
      + " vertices (" + NatToString(|st.blocks|) + " allocated blocks)"
  }

  // ---------------------------------------------------------------------------
  // The loader
  // ---------------------------------------------------------------------------

  lemma UpdateTwice<T>(b: seq<T>, k: nat, x: T, y: T)
    requires k < |b|
    ensures b[k := x][k := y] == b[k := y]
  {
  }

  class ObjLoader {
    var vertices: seq<Vec3>
    var normals: seq<Vec3>
    var blocks: seq<seq<MeshVertex>>
    var i: int

    function State(): ObjState
      reads this
    {
      ObjState(vertices, normals, blocks, i)
    }

    /** Empty lists, no block (`current` is null) and `i == 0`. */
    constructor ()
      ensures State() == Initial()
    {
      vertices, normals, blocks, i := [], [], [], 0;
    }

    /** The line callback of the loader. */
    method ProcessLine(line: string)
      requires LineOk(State(), line)
      modifies this
      ensures State() == LineStep(old(State()), line)
    {
      if |line| > 0 {
        var elements := SplitString(line, " ", []);
        if line[0] == 'v' {
          var arr := Vec3(elements[1], elements[2], elements[3]);
          if CharAt(line, 1) == 'n' {
            normals := normals + [arr];
          } else {
            vertices := vertices + [arr];
          }
        } else if line[0] == 'f' {
          Face(elements);
        }
      }
    }

    /** The `f` case: a block is opened if needed, then the three corners are written. */
    method Face(elements: seq<string>)
      requires FaceOk(State(), elements)
      modifies this
      ensures State() == AddFace(old(State()), FaceCorners(old(State()), elements))
    {
      ghost var st := State();
      if blocks == [] || i == MeshBlockSize {
        blocks := blocks + [[]];
        i := 0;
      }
      WriteCorners(st, elements);
    }

    /** `for (int j = 0; j < 3; j++)`: the three corners, in order, into the current block. */
    method WriteCorners(ghost st: ObjState, elements: seq<string>)
      requires vertices == st.vertices && normals == st.normals
      requires FaceOk(st, elements) && |blocks| > 0
      modifies this
      ensures vertices == old(vertices) && normals == old(normals) && i == old(i) + 3
      ensures blocks == old(blocks)[|old(blocks)| - 1 := old(blocks)[|old(blocks)| - 1] + FaceCorners(st, elements)]
    {
      ghost var corners := FaceCorners(st, elements);
      ghost var b0 := blocks;
      ghost var n := |b0|;
      assert b0[n - 1] + corners[..0] == b0[n - 1];
      assert b0[n - 1 := b0[n - 1]] == b0;
      for j := 0 to 3
        invariant i == old(i) + j && |blocks| == n
        invariant vertices == st.vertices && normals == st.normals
        invariant blocks == b0[n - 1 := b0[n - 1] + corners[..j]]
      {
        FaceCornerAt(st, elements, j);
        ghost var written := b0[n - 1] + corners[..j];
        ghost var before := blocks;
        WriteCorner(st, elements[j + 1]);
        assert before[n - 1] == written;
        assert blocks == b0[n - 1 := written][n - 1 := written + [corners[j]]];
        UpdateTwice(b0, n - 1, written, written + [corners[j]]);
        assert written + [corners[j]] == b0[n - 1] + corners[..j + 1] by {
          assert corners[..j + 1] == corners[..j] + [corners[j]];
        }
      }
      assert corners[..3] == corners;
    }

    /** One corner of a face: split it on `/`, look up its position and normal, and write it at `i`. */
    method WriteCorner(ghost st: ObjState, e: string)
      requires vertices == st.vertices && normals == st.normals
      requires CornerOk(st, e) && |blocks| > 0
      modifies this
      ensures vertices == old(vertices) && normals == old(normals) && i == old(i) + 1
      ensures blocks == old(blocks)[|old(blocks)| - 1 := old(blocks)[|old(blocks)| - 1] + [Corner(st, e)]]
    {
      var sub := SplitString(e, "/", []);
      var vert := vertices[Strtol(sub[0]) - 1];
      var norm := normals[Strtol(sub[2]) - 1];
      // `current->vertices[i++] = ...`
      blocks := blocks[|blocks| - 1 := blocks[|blocks| - 1] + [MeshVertex(vert, norm)]];
      i := i + 1;
    }

    /** Reads every line, in order. */
    method Load(lines: seq<string>)
      requires LinesOk(State(), lines)
      modifies this
      ensures State() == LoadAll(old(State()), lines)
    {
      for k := 0 to |lines|
        invariant LinesOk(State(), lines[k..])
        invariant LoadAll(State(), lines[k..]) == LoadAll(old(State()), lines)
      {
        assert lines[k..][1..] == lines[k + 1..];
        ProcessLine(lines[k]);
      }
    }

    /**
     * The closing report, with the intended count, and `num_vertices` of the
     * last block when there is one.
     */
    method Report() returns (message: string, numVertices: Option<int>)
      requires Inv(State())
      ensures message == ReportMessage(State())
      ensures numVertices.Some? <==> blocks != []
      ensures numVertices.Some? ==> numVertices.value == |blocks[|blocks| - 1]|
    {
      var count := if blocks == [] then 0 else (|blocks| - 1) * MeshBlockSize + i;
      message := "Mesh loaded with " + NatToString(count) + " vertices (" + NatToString(|blocks|) + " allocated blocks)";
      numVertices := if |blocks| > 0 then Some(i) else None;
    }
  }
}

=== FILE: resource_stack.dfy ===
/**
 * The tiered resource stack: a stack of groups of release actions. Pushing
 * opens a new empty group; attaching records "delete this resource" in the top
 * group; popping runs the top group's actions in attachment order and then
 * discards the group. A resource hold pushes when it is constructed and pops
 * when it is destroyed.
 *
 * Running a release action is modelled by appending it to the `released`
 * trace, so "which resources were deleted, and in which order" is part of the
 * state.
 */
module ResourceStack {

  /** A heap object handed to the stack; only its identity matters. */
  type Resource = nat

  /** The release action that `attach` records: delete exactly one resource. */
  datatype Action = Delete(resource: Resource)

  /** Groups from bottom (first pushed) to top, and the trace of actions already run. */
  datatype StackState = StackState(groups: seq<seq<Action>>, released: seq<Action>)

  // ---------------------------------------------------------------------------
  // Specification of the three operations on the abstract state
  // ---------------------------------------------------------------------------

  /** `push`: one new empty group on top. */
  function Pushed(s: StackState): (t: StackState)
    ensures |t.groups| == |s.groups| + 1 && t.groups[|s.groups|] == []
    ensures t.groups[..|s.groups|] == s.groups && t.released == s.released
  {
    s.(groups := s.groups + [[]])
  }

  /** `pop`: no-op without groups; otherwise run the top group's actions in index order and drop it. */
  function Popped(s: StackState): (t: StackState)
    ensures s.groups == [] ==> t == s
    ensures s.groups != [] ==>
      && t.groups == s.groups[..|s.groups| - 1]
      && t.released == s.released + s.groups[|s.groups| - 1]
  {
    if s.groups == [] then s
    else StackState(s.groups[..|s.groups| - 1], s.released + s.groups[|s.groups| - 1])
  }

  /** `attach`: push a group first when there is none, then append `Delete(r)` to the top group. */
  function Attached(s: StackState, r: Resource): (t: StackState)
    ensures s.groups == [] ==> t.groups == [[Delete(r)]]
    ensures s.groups != [] ==>
      t.groups == s.groups[..|s.groups| - 1] + [s.groups[|s.groups| - 1] + [Delete(r)]]
    ensures t.released == s.released
  {
    var b := if s.groups == [] then Pushed(s) else s;
    assert b.groups != [];
    assert s.groups == [] ==> b.groups[..|b.groups| - 1] == [] && b.groups[|b.groups| - 1] == [];
    assert [] + [Delete(r)] == [Delete(r)];
    b.(groups := b.groups[..|b.groups| - 1] + [b.groups[|b.groups| - 1] + [Delete(r)]])
  }

  /** Every action still waiting in some group, bottom group first. */
  function Pending(groups: seq<seq<Action>>): seq<Action>
  {
    if groups == [] then [] else Pending(groups[..|groups| - 1]) + groups[|groups| - 1]
  }

  /**
   * Nothing is lost and nothing is run twice: every attached action is either
   * still pending in a group or has been run, and `pop` only moves actions from
   * the first kind to the second.
   */
  lemma PopConservesActions(s: StackState)
    ensures multiset(Pending(Popped(s).groups)) + multiset(Popped(s).released)
         == multiset(Pending(s.groups)) + multiset(s.released)
  {
  }

  /** `attach` adds exactly its one action to the pending ones. */
  lemma {:induction false} AttachAddsOneAction(s: StackState, r: Resource)
    ensures Pending(Attached(s, r).groups) == Pending(s.groups) + [Delete(r)]
  {
    var t := Attached(s, r);
    if s.groups == [] {
      assert t.groups[..0] == [];
    } else {
      assert t.groups[..|t.groups| - 1] == s.groups[..|s.groups| - 1];
    }
  }

  /** `push` immediately followed by `pop` restores the groups and runs nothing. */
  lemma PushThenPopRestores(s: StackState)
    ensures Popped(Pushed(s)) == s
  {
    assert (s.groups + [[]])[..|s.groups|] == s.groups;
  }

  /** Within one group, actions run in attachment order, not reversed. */
  lemma {:induction false} PopRunsInAttachmentOrder(s: StackState, a: Resource, b: Resource)
    ensures var t := Popped(Attached(Attached(Pushed(s), a), b));
      t.groups == s.groups && t.released == s.released + [Delete(a), Delete(b)]
  {
    var n := |s.groups|;
    var p := Pushed(s);
    assert p.groups != [] && p.groups[..n] == s.groups && p.groups[n] == [];
    var t1 := Attached(p, a);
    assert [] + [Delete(a)] == [Delete(a)];
    assert t1.groups == s.groups + [[Delete(a)]];
    assert t1.groups != [] && t1.groups[..n] == s.groups && t1.groups[n] == [Delete(a)];
    var t2 := Attached(t1, b);
    assert t1.groups[n] + [Delete(b)] == [Delete(a), Delete(b)];
    assert t2.groups == s.groups + [[Delete(a), Delete(b)]];
    assert t2.groups[..n] == s.groups;
  }

  // ---------------------------------------------------------------------------
  // Scoping: holds nest last-in first-out
  // ---------------------------------------------------------------------------

  /** An operation a client performs on a stack. */
  datatype Op = PushOp | PopOp | AttachOp(r: Resource)

  function Step(s: StackState, op: Op): StackState
  {
    match op
    case PushOp => Pushed(s)
    case PopOp => Popped(s)
    case AttachOp(r) => Attached(s, r)
  }

  function Exec(s: StackState, ops: seq<Op>): StackState
    decreases |ops|
  {
    if ops == [] then s else Exec(Step(s, ops[0]), ops[1..])
  }

  /**
   * `ops` never pops below the group that is on top when it starts, given
   * that `depth` groups have been pushed above that group, and ends with them
   * all popped again: every push is matched by a later pop, as holds guarantee.
   */
  predicate NestedFrom(ops: seq<Op>, depth: nat)
    decreases |ops|
  {
    if ops == [] then depth == 0
    else match ops[0]
      case PushOp => NestedFrom(ops[1..], depth + 1)
      case PopOp => depth > 0 && NestedFrom(ops[1..], depth - 1)
      case AttachOp(_) => NestedFrom(ops[1..], depth)
  }

  /**
   * While nested operations run, the group `depth` levels below the top and
   * everything under it stay in place: the groups under it are untouched and
   * it only gains actions. So nothing attached to it is released early.
   */
  lemma {:induction false} NestedKeepsLowerGroups(s: StackState, ops: seq<Op>, depth: nat)
    requires NestedFrom(ops, depth) && |s.groups| > depth
    ensures |Exec(s, ops).groups| == |s.groups| - depth
    ensures Exec(s, ops).groups[..|s.groups| - depth - 1] == s.groups[..|s.groups| - depth - 1]
    ensures s.groups[|s.groups| - depth - 1] <= Exec(s, ops).groups[|s.groups| - depth - 1]
    decreases |ops|
  {
    if ops != [] {
      var s' := Step(s, ops[0]);
      var depth' := NextDepth(ops[0], depth);
      StepKeepsLowerGroups(s, ops[0], depth);
      NestedKeepsLowerGroups(s', ops[1..], depth');
    }
  }

  /** How many groups sit above the watched one after `op`. */
  function NextDepth(op: Op, depth: nat): nat
    requires op.PopOp? ==> depth > 0
  {
    match op
    case PushOp => depth + 1
    case PopOp => depth - 1
    case AttachOp(_) => depth
  }

  /** One step of `NestedKeepsLowerGroups`. */
  lemma StepKeepsLowerGroups(s: StackState, op: Op, depth: nat)
    requires |s.groups| > depth && (op.PopOp? ==> depth > 0)
    ensures |Step(s, op).groups| - NextDepth(op, depth) == |s.groups| - depth
    ensures |Step(s, op).groups| > NextDepth(op, depth)
    ensures Step(s, op).groups[..|s.groups| - depth - 1] == s.groups[..|s.groups| - depth - 1]
    ensures s.groups[|s.groups| - depth - 1] <= Step(s, op).groups[|s.groups| - depth - 1]
  {
    var n := |s.groups|;
    var b := n - depth;
    var s' := Step(s, op);
    match op
    case PushOp =>
      assert s'.groups == s.groups + [[]];
      assert s'.groups[..b - 1] == s.groups[..b - 1];
    case PopOp =>
      assert s'.groups == s.groups[..n - 1];
      assert s'.groups[..b - 1] == s.groups[..b - 1];
    case AttachOp(r) =>
      assert s'.groups == s.groups[..n - 1] + [s.groups[n - 1] + [Delete(r)]];
      assert s'.groups[..b - 1] == s.groups[..b - 1];
  }

  /**
   * A hold around well-nested work: the hold pushes, the work runs, the hold
   * pops. The stack's groups are restored exactly, and a resource attached
   * while the hold's group is on top is released by the hold's pop, not
   * before it.
   */
  lemma {:induction false} HoldReleasesItsGroup(s: StackState, r: Resource, ops: seq<Op>)
    requires NestedFrom(ops, 0)
    ensures |Exec(Attached(Pushed(s), r), ops).groups| == |s.groups| + 1
    ensures Delete(r) in Exec(Attached(Pushed(s), r), ops).groups[|s.groups|]
    ensures Popped(Exec(Attached(Pushed(s), r), ops)).groups == s.groups
    ensures var inside := Exec(Attached(Pushed(s), r), ops);
      Delete(r) in Popped(inside).released[|inside.released|..]
  {
    var n := |s.groups|;
    var p := Attached(Pushed(s), r);
    assert Pushed(s).groups != [] && Pushed(s).groups[..n] == s.groups && Pushed(s).groups[n] == [];
    assert [] + [Delete(r)] == [Delete(r)];
    assert p.groups == s.groups + [[Delete(r)]];
    assert p.groups[..n] == s.groups;
    NestedKeepsLowerGroups(p, ops, 0);
    var inside := Exec(p, ops);
    assert [Delete(r)] <= inside.groups[n];
    assert inside.groups[n][0] == Delete(r);
    var popped := Popped(inside);
    assert popped.released[|inside.released|..] == inside.groups[n];
  }

  // ---------------------------------------------------------------------------
  // The objects
  // ---------------------------------------------------------------------------

  class ResourceStack {
    /** `allocation_stack`: groups of release actions, top group last. */
    var groups: seq<seq<Action>>
    /** Release actions already run, in the order they ran. */
    var released: seq<Action>

    function State(): StackState
      reads this
    {
      StackState(groups, released)
    }

    /** A fresh stack holds exactly one empty group. */
    constructor ()
      ensures groups == [[]] && released == []
    {
      groups := [];
      released := [];
      new;
      Push();
    }

    method Push()
      modifies this
      ensures State() == Pushed(old(State()))
    {
      groups := groups + [[]];
    }

    method Pop()
      modifies this
      ensures State() == Popped(old(State()))
    {
      if |groups| == 0 {
        return;
      }
      // The top group is copied before any action runs.
      var current := groups[|groups| - 1];
      var i := 0;
      while i < |current|
        invariant 0 <= i <= |current| && groups == old(groups)
        invariant released == old(released) + current[..i]
      {
        released := released + [current[i]];
        i := i + 1;
      }
      groups := groups[..|groups| - 1];
    }

    method Attach(r: Resource)
      modifies this
      ensures State() == Attached(old(State()), r)
    {
      if |groups| == 0 {
        Push();
      }
      groups := groups[..|groups| - 1] + [groups[|groups| - 1] + [Delete(r)]];
    }
  }

  /** A scoped object that pushes its stack on construction and pops it on destruction. */
  class ResourceHold {
    const stack: ResourceStack

    constructor (stack: ResourceStack)
      modifies stack
      ensures this.stack == stack
      ensures stack.State() == Pushed(old(stack.State()))
    {
      this.stack := stack;
      new;
      stack.Push();
    }

    /** `~resource_hold`: pops the stack the hold was made on. */
    method Release()
      modifies stack
      ensures stack.State() == Popped(old(stack.State()))
    {
      stack.Pop();
    }
  }
}

=== FILE: split.dfy ===
/**
 * `split_string`: repeatedly find the delimiter, append the text before it to
 * the output, and erase up to the end of the delimiter; the remainder is
 * appended last. `Split` is the result as a function, `Join` its inverse and
 * `Occurrences` an independent left-to-right count of the delimiter.
 */
module StringSplit {
  import opened Common

  /** `d` occurs in `s` starting at position `i`. */
  predicate OccursAt(s: string, d: string, i: nat)
  {
    i + |d| <= |s| && s[i..i + |d|] == d
  }

  /** `d` occurs somewhere in `s`. */
  predicate Contains(s: string, d: string)
  {
    exists i: nat :: i <= |s| && OccursAt(s, d, i)
  }

  /** `std::string::find` from position `i`: the first occurrence at or after `i`, if any. */
  function FindFrom(s: string, d: string, i: nat): (r: Option<nat>)
    requires i <= |s|
    ensures r.Some? ==> i <= r.value && OccursAt(s, d, r.value)
    ensures r.Some? ==> forall k: nat :: i <= k < r.value ==> !OccursAt(s, d, k)
    ensures r.None? ==> forall k: nat :: i <= k ==> !OccursAt(s, d, k)
    decreases |s| - i
  {
    if OccursAt(s, d, i) then Some(i)
    else if i == |s| then None
    else FindFrom(s, d, i + 1)
  }

  /** `str.find(delim)`. */
  function Find(s: string, d: string): (r: Option<nat>)
    ensures r.Some? ==> OccursAt(s, d, r.value) && forall k: nat :: k < r.value ==> !OccursAt(s, d, k)
    ensures r.None? <==> !Contains(s, d)
  {
    FindFrom(s, d, 0)
  }

  /** The elements `split_string` appends for `s`, in order. */
  function Split(s: string, d: string): (parts: seq<string>)
    requires |d| > 0
    ensures |parts| >= 1
    decreases |s|
  {
    match Find(s, d)
    case None => [s]
    case Some(i) => [s[..i]] + Split(s[i + |d|..], d)
  }

  /** The parts glued back together with the delimiter between neighbours. */
  function Join(parts: seq<string>, d: string): string
    requires |parts| >= 1
  {
    if |parts| == 1 then parts[0] else parts[0] + d + Join(parts[1..], d)
  }

  /** Non-overlapping occurrences of `d` in `s` from position `i`, scanning left to right. */
  function Occurrences(s: string, d: string, i: nat): nat
    requires |d| > 0
    decreases |s| - i
  {
    if i + |d| > |s| then 0
    else if OccursAt(s, d, i) then 1 + Occurrences(s, d, i + |d|)
    else Occurrences(s, d, i + 1)
  }

  /** One round of the loop: the element before the first delimiter, then the rest split. */
  lemma SplitAtFind(s: string, d: string)
    requires |d| > 0 && Find(s, d).Some?
    ensures Split(s, d) == [s[..Find(s, d).value]] + Split(s[Find(s, d).value + |d|..], d)
  {
  }

  lemma JoinCons(a: string, parts: seq<string>, d: string)
    requires |parts| >= 1
    ensures Join([a] + parts, d) == a + d + Join(parts, d)
  {
    assert ([a] + parts)[1..] == parts;
  }

  lemma ThreeSlices(s: string, i: nat, j: nat)
    requires i <= j <= |s|
    ensures s[..i] + s[i..j] + s[j..] == s
  {
  }

  /** Joining the elements with the delimiter gives back the input. */
  lemma {:induction false} JoinSplit(s: string, d: string)
    requires |d| > 0
    ensures Join(Split(s, d), d) == s
    decreases |s|
  {
    var r := Find(s, d);
    if r.Some? {
      var i := r.value;
      var rest := s[i + |d|..];
      SplitAtFind(s, d);
      JoinSplit(rest, d);
      JoinCons(s[..i], Split(rest, d), d);
      assert s[i..i + |d|] == d;
      ThreeSlices(s, i, i + |d|);
    }
  }

  /** No element contains the delimiter. */
  lemma {:induction false} SplitPartsAreFree(s: string, d: string)
    requires |d| > 0
    ensures forall k :: 0 <= k < |Split(s, d)| ==> !Contains(Split(s, d)[k], d)
    decreases |s|
  {
    var r := Find(s, d);
    if r.Some? {
      var i := r.value;
      var rest := s[i + |d|..];
      SplitPartsAreFree(rest, d);
      assert Split(s, d) == [s[..i]] + Split(rest, d);
      if Contains(s[..i], d) {
        var k: nat :| k <= i && OccursAt(s[..i], d, k);
        assert s[..i][k..k + |d|] == s[k..k + |d|];
        assert OccursAt(s, d, k);
      }
    }
  }

  /** Without any occurrence of the delimiter, the one element is the input itself. */
  lemma SplitWithoutDelimiter(s: string, d: string)
    requires |d| > 0 && !Contains(s, d)
    ensures Split(s, d) == [s]
  {
  }

  /** A string without the character `c` does not contain the one-character delimiter `[c]`. */
  lemma NoCharNoDelimiter(s: string, c: char)
    requires forall k :: 0 <= k < |s| ==> s[k] != c
    ensures !Contains(s, [c])
  {
    forall i: nat | i <= |s|
      ensures !OccursAt(s, [c], i)
    {
      if i + 1 <= |s| {
        assert s[i..i + 1][0] == s[i];
      }
    }
  }

  /** Positions before the first occurrence add nothing to the count. */
  lemma {:induction false} OccurrencesSkip(s: string, d: string, i: nat, j: nat)
    requires |d| > 0 && i <= j && j <= |s|
    requires forall k: nat :: i <= k < j ==> !OccursAt(s, d, k)
    ensures Occurrences(s, d, i) == Occurrences(s, d, j)
    decreases j - i
  {
    if i < j && i + |d| <= |s| {
      OccurrencesSkip(s, d, i + 1, j);
    } else if i < j {
      assert Occurrences(s, d, i) == 0;
      assert Occurrences(s, d, j) == 0;
    }
  }

  /** Counting from position `i` of `s` is counting in the suffix of `s` from `i`. */
  lemma {:induction false} OccurrencesShift(s: string, d: string, i: nat, j: nat)
    requires |d| > 0 && i <= |s| && j <= |s| - i
    ensures Occurrences(s, d, i + j) == Occurrences(s[i..], d, j)
    decreases |s| - i - j
  {
    if i + j + |d| <= |s| {
      assert s[i..][j..j + |d|] == s[i + j..i + j + |d|];
      if OccursAt(s, d, i + j) {
        OccurrencesShift(s, d, i, j + |d|);
      } else {
        OccurrencesShift(s, d, i, j + 1);
      }
    }
  }

  /** `k` non-overlapping occurrences of the delimiter produce exactly `k + 1` elements. */
  lemma {:induction false} SplitCount(s: string, d: string)
    requires |d| > 0
    ensures |Split(s, d)| == Occurrences(s, d, 0) + 1
    decreases |s|
  {
    var r := Find(s, d);
    if r.None? {
      OccurrencesSkip(s, d, 0, |s|);
    } else {
      var i := r.value;
      var rest := s[i + |d|..];
      SplitAtFind(s, d);
      SplitCount(rest, d);
      OccurrencesSkip(s, d, 0, i);
      assert Occurrences(s, d, i) == 1 + Occurrences(s, d, i + |d|);
      OccurrencesShift(s, d, i + |d|, 0);
    }
  }

  /**
   * `split_string`: appends the elements of `str` to `output`. The delimiter
   * must not be empty: an empty one is found at 0 and erases nothing, so the
   * C++ loop never ends.
   */
  method SplitString(str: string, delim: string, output: seq<string>) returns (result: seq<string>)
    requires |delim| > 0
    ensures result == output + Split(str, delim)
  {
    var s := str;
    result := output;
    var index := Find(s, delim);
    while index.Some?
      invariant index == Find(s, delim)
      invariant result + Split(s, delim) == output + Split(str, delim)
      decreases |s|
    {
      SplitAtFind(s, delim);
      result := result + [s[..index.value]];
      s := s[index.value + |delim|..];
      index := Find(s, delim);
    }
    result := result + [s];
  }
}

=== FILE: worker_thread.dfy ===
/**
 * The C++ worker thread and worker pool. A worker owns a FIFO task queue and is
 * parked on one thread; other threads append tasks, while a task submitted from
 * the parked thread itself runs at once. One drain pass of the parked loop runs
 * the whole queue front to back. The pool spreads tasks over its workers
 * round-robin.
 *
 * Threads are not modelled: the calling thread is a parameter, a drain pass is
 * an explicit step, and the waits are preconditions. Running a task appends it
 * to the worker's `ran` trace; a logged error appends the exception's message
 * to `errors`.
 */
module WorkerThread {
  import opened Common

  const DoubleParkError: string := "Cannot park a single worker thread more than once concurrently"
  const FatalError: string := "A fatal error has occurred"

  /** Abstract state of one worker. `threadId == None` is the default id, equal to no running thread. */
  datatype WorkerState = WorkerState(
    queue: seq<Task>,
    isParked: bool,
    threadId: Option<ThreadId>,
    ran: seq<Task>,
    errors: seq<string>)

  /** Index of the first task in `q` that throws, or `|q|` when none does. */
  function FirstFailure(q: seq<Task>): (k: nat)
    ensures k <= |q|
    ensures forall j :: 0 <= j < k ==> q[j].failure.None?
    ensures k < |q| ==> q[k].failure.Some?
  {
    if q == [] then 0
    else if q[0].failure.Some? then 0
    else 1 + FirstFailure(q[1..])
  }

  /**
   * Running one task on the calling thread: it runs without touching the
   * queue, and the exception it throws, if any, is logged and goes no further.
   */
  function RunLogged(w: WorkerState, t: Task): (w': WorkerState)
    ensures w'.queue == w.queue && w'.ran == w.ran + [t]
    ensures t.failure.None? ==> w'.errors == w.errors
    ensures t.failure.Some? ==> w'.errors == w.errors + [t.failure.value]
    ensures w'.isParked == w.isParked && w'.threadId == w.threadId
  {
    w.(ran := w.ran + [t], errors := w.errors + FailureMessages([t]))
  }

  /** `execute`: inline on the parked thread, otherwise appended to the back of the queue. */
  function Submitted(w: WorkerState, caller: ThreadId, t: Task): WorkerState
  {
    if w.threadId == Some(caller) then RunLogged(w, t)
    else w.(queue := w.queue + [t])
  }

  /**
   * One pass of the parked loop: run the queue front to back, removing each task
   * after it has run. A task that throws is logged and the pass ends with the
   * fatal error, that task still at the front.
   */
  function Drained(w: WorkerState): (WorkerState, Outcome<string>)
  {
    var k := FirstFailure(w.queue);
    if k == |w.queue| then
      (w.(queue := [], ran := w.ran + w.queue), Pass)
    else
      (w.(queue := w.queue[k..], ran := w.ran + w.queue[..k + 1],
          errors := w.errors + [w.queue[k].failure.value]),
       Fail(FatalError))
  }

  /** `execute` of each task of `ts` in turn, all from `caller`. */
  function SubmittedAll(w: WorkerState, caller: ThreadId, ts: seq<Task>): WorkerState
    decreases |ts|
  {
    if ts == [] then w else SubmittedAll(Submitted(w, caller, ts[0]), caller, ts[1..])
  }

  /** Tasks submitted from a thread other than the parked one queue up in submission order. */
  lemma {:induction false} SubmittedAllAppends(w: WorkerState, caller: ThreadId, ts: seq<Task>)
    requires w.threadId != Some(caller)
    ensures SubmittedAll(w, caller, ts) == w.(queue := w.queue + ts)
    decreases |ts|
  {
    if ts != [] {
      var w' := Submitted(w, caller, ts[0]);
      SubmittedAllAppends(w', caller, ts[1..]);
      assert w.queue + [ts[0]] + ts[1..] == w.queue + ts;
    }
  }

  /**
   * Tasks submitted from the parked thread itself run at once, in submission
   * order, and never reach the queue; the message of each one that throws is
   * logged.
   */
  lemma {:induction false} SubmittedAllInline(w: WorkerState, caller: ThreadId, ts: seq<Task>)
    requires w.threadId == Some(caller)
    ensures SubmittedAll(w, caller, ts) == w.(ran := w.ran + ts, errors := w.errors + FailureMessages(ts))
    decreases |ts|
  {
    if ts == [] {
      assert w.ran + ts == w.ran && w.errors + FailureMessages(ts) == w.errors;
    } else {
      var w' := Submitted(w, caller, ts[0]);
      SubmittedAllInline(w', caller, ts[1..]);
      assert [ts[0]] + ts[1..] == ts;
      FailureMessagesAppend([ts[0]], ts[1..]);
      assert w.ran + [ts[0]] + ts[1..] == w.ran + ts;
      assert w.errors + FailureMessages([ts[0]]) + FailureMessages(ts[1..]) == w.errors + FailureMessages(ts);
    }
  }

  /**
   * First in, first out: tasks submitted by one thread other than the parked one
   * and then drained run in submission order, after what was already queued,
   * and the pass leaves the queue empty.
   */
  lemma SubmissionOrderIsExecutionOrder(w: WorkerState, caller: ThreadId, ts: seq<Task>)
    requires w.threadId != Some(caller)
    requires forall j :: 0 <= j < |w.queue + ts| ==> (w.queue + ts)[j].failure.None?
    ensures Drained(SubmittedAll(w, caller, ts)).0.ran == w.ran + w.queue + ts
    ensures Drained(SubmittedAll(w, caller, ts)).0.queue == []
    ensures Drained(SubmittedAll(w, caller, ts)).1 == Pass
  {
    SubmittedAllAppends(w, caller, ts);
    var q := w.queue + ts;
    assert FirstFailure(q) == |q| by { NoFailureMeansFull(q); }
  }

  lemma {:induction false} NoFailureMeansFull(q: seq<Task>)
    requires forall j :: 0 <= j < |q| ==> q[j].failure.None?
    ensures FirstFailure(q) == |q|
  {
    if q != [] {
      NoFailureMeansFull(q[1..]);
    }
  }

  /** Every task of a pass runs at most once: the tasks run plus those left equal the queue, with one overlap at a failure. */
  lemma DrainRunsEachTaskOnce(w: WorkerState)
    ensures var (w', r) := Drained(w);
      r == Pass ==> w'.ran == w.ran + w.queue && w'.queue == [] && w'.errors == w.errors
    ensures var (w', r) := Drained(w);
      r == Pass ==> forall j :: 0 <= j < |w.queue| ==> w.queue[j].failure.None?
    ensures var (w', r) := Drained(w);
      r.Fail? ==> |w'.queue| >= 1 && w'.ran == w.ran + w.queue[..|w.queue| - |w'.queue| + 1]
                  && w'.queue == w.queue[|w.queue| - |w'.queue|..]
    ensures var (w', r) := Drained(w);
      r.Fail? ==> |w'.queue| >= 1 && r == Fail(FatalError) && w'.queue[0].failure.Some?
                  && (forall j :: 0 <= j < |w.queue| - |w'.queue| ==> w.queue[j].failure.None?)
                  && w'.errors == w.errors + [w'.queue[0].failure.value]
  {
  }

  /**
   * Whether `execute_wait` of `t` from `caller` ever returns: inline, when `t`
   * returns normally; posted, when the drain pass reaches the end of the
   * wrapper, that is when neither an earlier queued task nor `t` throws.
   */
  function WaitReleases(w: WorkerState, caller: ThreadId, t: Task): bool
  {
    if w.threadId == Some(caller) then t.failure.None?
    else FirstFailure(w.queue + [t]) == |w.queue| + 1
  }

  /**
   * A task that throws never releases its `execute_wait` caller: inline its
   * message is logged and the caller waits on; posted, the pass stops at a
   * throwing task and `park` fails with the fatal error.
   */
  lemma ThrowingTaskNeverReleases(w: WorkerState, caller: ThreadId, t: Task)
    requires t.failure.Some?
    ensures !WaitReleases(w, caller, t)
    ensures w.threadId == Some(caller) ==> Submitted(w, caller, t).errors == w.errors + [t.failure.value]
    ensures w.threadId != Some(caller) ==> Drained(Submitted(w, caller, t)).1 == Fail(FatalError)
  {
    var q := w.queue + [t];
    assert q[|w.queue|] == t;
    if w.threadId != Some(caller) {
      assert Submitted(w, caller, t).queue == q;
    }
  }

  // ---------------------------------------------------------------------------
  // The worker
  // ---------------------------------------------------------------------------

  class WorkerThread {
    /** `execution_queue`, front first. */
    var queue: seq<Task>
    var isParked: bool
    /** `thread_id`: the thread the worker was parked on. */
    var threadId: Option<ThreadId>
    /** Tasks run on behalf of this worker, in the order they ran. */
    var ran: seq<Task>
    /** Messages this worker's `log.error` received. */
    var errors: seq<string>

    function State(): WorkerState
      reads this
    {
      WorkerState(queue, isParked, threadId, ran, errors)
    }

    /**
     * With `createThread` the constructor starts a thread that parks the
     * worker; `spawned` is the id of that thread, and the model performs its
     * park step at once.
     */
    constructor (createThread: bool := true, spawned: ThreadId := 0)
      ensures queue == [] && ran == [] && errors == []
      ensures isParked == createThread
      ensures threadId == if createThread then Some(spawned) else None
    {
      queue, isParked, threadId, ran, errors := [], false, None, [], [];
      new;
      if createThread {
        var _ := Park(spawned);
      }
    }

    /**
     * The binding step of `park`: refused with `runtime_error` when the worker
     * is already parked; otherwise the caller becomes the worker's thread. The
     * loop that follows is `DrainPass`, repeated.
     */
    method Park(caller: ThreadId) returns (r: Outcome<string>)
      modifies this
      ensures old(isParked) ==> r == Fail(DoubleParkError) && State() == old(State())
      ensures !old(isParked) ==>
        r == Pass && State() == old(State()).(isParked := true, threadId := Some(caller))
    {
      if isParked {
        return Fail(DoubleParkError);
      }
      isParked := true;
      threadId := Some(caller);
      r := Pass;
    }

    /** One iteration of the parked loop, on the parked thread. */
    method DrainPass() returns (r: Outcome<string>)
      requires isParked
      modifies this
      ensures (State(), r) == Drained(old(State()))
    {
      ghost var q0 := queue;
      ghost var k := FirstFailure(q0);
      while |queue| > 0
        invariant |queue| <= |q0| && queue == q0[|q0| - |queue|..]
        invariant |q0| - |queue| <= k
        invariant ran == old(ran) + q0[..|q0| - |queue|]
        invariant errors == old(errors)
        invariant isParked == old(isParked) && threadId == old(threadId)
      {
        var task := queue[0];
        assert task == q0[|q0| - |queue|];
        ran := ran + [task];
        if task.failure.Some? {
          errors := errors + [task.failure.value];
          assert ran == old(ran) + q0[..k + 1];
          return Fail(FatalError);
        }
        queue := queue[1..];
      }
      assert q0[..|q0|] == q0;
      r := Pass;
    }

    /** `execute`: run inline when called from the worker's own thread, else append to the queue. */
    method Execute(caller: ThreadId, task: Task)
      modifies this
      ensures State() == Submitted(old(State()), caller, task)
    {
      if threadId == Some(caller) {
        ran := ran + [task];
        if task.failure.Some? {
          errors := errors + [task.failure.value];
        }
        return;
      }
      queue := queue + [task];
    }

    /**
     * `execute_wait`: submit a wrapper that runs the given task and then signals
     * completion, and wait for the signal. The wait is modelled by the parked
     * thread's next drain pass; `released` says whether the signal is ever given,
     * that is whether the caller is released.
     */
    method ExecuteWait(caller: ThreadId, task: Task) returns (released: bool)
      requires isParked
      modifies this
      ensures old(threadId) == Some(caller) ==>
        State() == Submitted(old(State()), caller, task) && released == task.failure.None?
      ensures old(threadId) != Some(caller) ==>
        && State() == Drained(Submitted(old(State()), caller, task)).0
        && released == (FirstFailure(old(queue) + [task]) == |old(queue)| + 1)
      ensures released == WaitReleases(old(State()), caller, task)
    {
      var inline := threadId == Some(caller);
      Execute(caller, task);
      if inline {
        released := task.failure.None?;
      } else {
        // The wrapper signals only after the given task returned normally, and the
        // pass reaches it only when no earlier task threw.
        var r := DrainPass();
        released := r == Pass;
      }
    }
  }

  // ---------------------------------------------------------------------------
  // The pool
  // ---------------------------------------------------------------------------

  /** The worker the `counter`-th task goes to. */
  function RoundRobinTarget(counter: nat, numWorkers: nat): (k: nat)
    requires numWorkers > 0
    ensures k < numWorkers
  {
    counter % numWorkers
  }

  /** Any `n` consecutive dispatches reach every one of the `n` workers. */
  lemma RoundRobinReachesAll(start: nat, n: nat, target: nat)
    requires target < n
    ensures exists k :: start <= k < start + n && RoundRobinTarget(k, n) == target
  {
    var m := start / n;
    assert start == m * n + start % n;
    if target >= start % n {
      ModUnique(m * n + target, n, m, target);
      assert RoundRobinTarget(m * n + target, n) == target;
    } else {
      assert (m + 1) * n == m * n + n;
      ModUnique((m + 1) * n + target, n, m + 1, target);
      assert RoundRobinTarget((m + 1) * n + target, n) == target;
    }
  }

  /** A pool built without a worker count has one worker per logical core the host reports. */
  method DefaultPoolSize(hardwareConcurrency: nat, spawned: seq<ThreadId>) returns (pool: WorkerPool)
    requires |spawned| == hardwareConcurrency
    ensures pool.numWorkers == hardwareConcurrency && pool.Valid()
    ensures forall i :: 0 <= i < hardwareConcurrency ==> pool.workers[i].isParked
  {
    pool := new WorkerPool(hardwareConcurrency, spawned);
  }

  class WorkerPool {
    /** `workers`: the pointer array, one thread-spawning worker per slot. */
    const workers: array<WorkerThread?>
    const numWorkers: nat
    /** `round_robin`: how many tasks have been dispatched. */
    var roundRobin: nat
    /** Workers deleted by the destructor, in order. */
    var freed: seq<WorkerThread>

    ghost predicate Valid()
      reads this, workers
    {
      && workers.Length == numWorkers
      && (forall i :: 0 <= i < numWorkers ==> workers[i] != null)
      && (forall i, j :: 0 <= i < j < numWorkers ==> workers[i] != workers[j])
    }

    /**
     * Creates `numWorkers` workers, each on a thread of its own; `spawned[i]`
     * is the id of the thread worker `i` starts. The model runs each
     * worker's park step at once; the C++ constructor detaches the threads
     * and returns without waiting for them to park. `hardwareConcurrency` is what
     * `std::thread::hardware_concurrency()` returns, the number of workers
     * when none is given.
     */
    constructor (hardwareConcurrency: nat, spawned: seq<ThreadId>, numWorkers: nat := hardwareConcurrency)
      requires |spawned| == numWorkers
      ensures this.numWorkers == numWorkers
      ensures Valid() && fresh(workers) && roundRobin == 0 && freed == []
      ensures forall i :: 0 <= i < numWorkers ==>
        && fresh(workers[i])
        && workers[i].State() == WorkerState([], true, Some(spawned[i]), [], [])
    {
      this.numWorkers := numWorkers;
      var ws := new WorkerThread?[numWorkers];
      var i := 0;
      while i < numWorkers
        invariant 0 <= i <= numWorkers && fresh(ws)
        invariant forall j :: 0 <= j < i ==>
          && ws[j] != null && fresh(ws[j])
          && ws[j].State() == WorkerState([], true, Some(spawned[j]), [], [])
        invariant forall j, l :: 0 <= j < l < i ==> ws[j] != ws[l]
      {
        var w := new WorkerThread(true, spawned[i]);
        ws[i] := w;
        i := i + 1;
      }
      workers := ws;
      roundRobin := 0;
      freed := [];
    }

    /** `execute`: hand the given task to worker `round_robin mod num_workers` and advance the counter by one. */
    method Execute(caller: ThreadId, task: Task)
      requires Valid() && numWorkers > 0
      modifies this`roundRobin, workers[RoundRobinTarget(roundRobin, numWorkers)]
      ensures Valid() && roundRobin == old(roundRobin) + 1
      ensures var k := RoundRobinTarget(old(roundRobin), numWorkers);
        workers[k].State() == Submitted(old(workers[k].State()), caller, task)
      ensures forall j :: 0 <= j < numWorkers && j != RoundRobinTarget(old(roundRobin), numWorkers) ==>
        workers[j].State() == old(workers[j].State())
    {
      var index := roundRobin % numWorkers;
      roundRobin := roundRobin + 1;
      var worker := workers[index];
      worker.Execute(caller, task);
    }

    /** `~worker_pool`: delete each worker exactly once, in index order. */
    method Destroy()
      requires Valid()
      modifies this`freed
      ensures freed == old(freed) + workers[..]
    {
      var i := 0;
      while i < numWorkers
        invariant 0 <= i <= numWorkers
        invariant freed == old(freed) + workers[..i]
      {
        freed := freed + [workers[i]];
        i := i + 1;
      }
      assert workers[..numWorkers] == workers[..];
    }
  }
}
